=== FILE: README.md ===
# Call-center backend: classification, crud store, schemas and auth

This project is a Dafny model of the core of a call-center backend. The
backend is a FastAPI service over SQLite with five tables: users (`usuarios`),
calls (`llamadas`), AI classifications (`clasificacion_ia`), daily metrics
(`metricas`) and reports (`reportes`). The model covers four parts of it.

- **The classification service** (`Clasificador`). It cleans the language
  model's reply of Markdown code fences, reads the `"clasificacion"` label, and
  computes a confidence and a recommendation. When anything fails, it falls
  back to a default classification. Both entry points are total, and the
  category they return is always one of `venta`, `soporte`, `reclamo`.
- **The pydantic schemas** (`EsquemaUsuario`, `EsquemaLlamada`,
  `EsquemaClasificacion`, `EsquemaMetrica`, `EsquemaReporte`, with the shared
  validators in `Validacion`). Each validator returns either the normalised
  value or the set of fields that failed. Each update schema's
  `model_dump(exclude_unset=True)` is a list of field assignments (`Volcar`).
  The `setattr` loop that applies it (`Partial.SetAttrs`) is proved equal to a
  field-wise patch (`Parchear`).
- **The crud package**.
  - The read side (`Consultas`, over the generic listing machinery in `Query`)
    has lookups by key, and listings that are filtered, sorted by date or by
    confidence where the source orders them (the user listing is unordered),
    and paginated with `offset`/`limit`.
  - The write side is a class holding the five tables as maps
    (`Almacen.BaseDeDatos`). Its methods create, update and delete rows.
  - Each method keeps the tables' unique constraints (e-mail, one
    classification per call, one metric per date), positive ids, and
    referential integrity: every call and report names a stored user, and
    every classification a stored call. Each method states its complete new
    state.
  - Deleting a user that a call or report names, or a call that has a
    classification, fails and deletes nothing. The relationships have no
    delete cascade, so the session sets the child's NOT NULL key to NULL and
    the commit raises `IntegrityError`.
- **Authentication** (`Auth`). It covers the claims an access token carries,
  the three ways `verificar_token` can reject a token, and how a bearer token
  resolves to the current user. The optional variant turns every failure into
  `None`.

Text handling (`Text`) models the Python string operations the core uses:
`strip`, ASCII `lower`, `in`, `split(sep)[0]`/`[1]` and `replace`. Both `in`
and `split` are modelled through a search for the first occurrence (`Text.Find`).

## Model

| member | source | states |
|---|---|---|
| Text.Strip | servicios/clasificacion_ia.py:116 | the result has no white space at either end and is no longer than the input |
| Text.StripPadded | servicios/clasificacion_ia.py:116 | `strip()` removes exactly the white space around a stripped text |
| Text.StripAroundSolid | servicios/clasificacion_ia.py:116 | stripping text around a middle part that starts and ends solid trims only the outer parts |
| Text.StripKeepsAbsent | servicios/clasificacion_ia.py:119-122 | stripping never creates an occurrence of a fence that was absent |
| Text.SplitHead | servicios/clasificacion_ia.py:120 | `s.split(sep)[0]` is a prefix that holds no separator and ends where the first separator starts, or is all of `s` when there is none |
| Text.Contains | servicios/clasificacion_ia.py:119-121 | `pat in s` holds iff `pat` occurs in `s` at some index |
| Text.SplitSecond | servicios/clasificacion_ia.py:120 | `s.split(sep)[1]` starts right after the first separator, holds no separator, and is followed by a separator or by the end of `s` |
| Text.SplitSecondWhole | servicios/clasificacion_ia.py:120 | the piece `s.split(sep)[1]` holds no separator, so splitting it again leaves it whole |
| Text.Lower | servicios/clasificacion_ia.py:131 | lower-casing keeps the length, maps each character by its ASCII lower case and leaves no upper-case letter |
| Text.LowerFixesLowercase | esquemas/clasificacion_ia.py:20-22 | text with no upper-case letter is its own lower case, so lower-casing is idempotent |
| Clasificador.LimpiarRespuesta | servicios/clasificacion_ia.py:116-122 | the text handed to `json.loads` is stripped; a reply without a fence is only stripped; a fenced reply loses every fence |
| Clasificador.JsonFenceRoundTrip | servicios/clasificacion_ia.py:119-120 | a JSON body wrapped in a json fence, with prose before it and text after it, reaches the decoder intact except for surrounding whitespace |
| Clasificador.BareFenceRoundTrip | servicios/clasificacion_ia.py:121-122 | the same round trip for a bare code fence when no json fence is present |
| Clasificador.BareFenceIsFirstPiece | servicios/clasificacion_ia.py:121-122 | with only bare fences, the decoder gets the stripped text between the first fence and the next |
| Clasificador.ExtraerCategoria | servicios/clasificacion_ia.py:124-133 | a label is accepted iff the reply decodes to a label whose lower-cased form is a category; a decode error and only a decode error gives `JsonInvalido` |
| Clasificador.ConfianzaLlamada | servicios/clasificacion_ia.py:136-144 | 0.95 iff the category equals the lower-cased call type; 0.90 iff not, and it is a complaint on an escalated call or support on a resolved one; otherwise 0.85 |
| Clasificador.RecomendacionLlamada | servicios/clasificacion_ia.py:288-320 | the standard-protocol text is returned iff the category or the lower-cased outcome lies outside the table |
| Clasificador.CategoriaRespaldo | servicios/clasificacion_ia.py:155-170 | the fallback category is the lower-cased call type when it is a category, else `soporte` |
| Clasificador.ClasificarLlamada | servicios/clasificacion_ia.py:70-170 | always a valid category with confidence in [0,1]; on success, the computed confidence and recommendation; 0.70 after a JSON decode error and 0.60 after any other failure, with the fallback category and the fallback's fixed recommendation text (naming the fallback category, or carrying the error message) |
| Clasificador.AlgunaPalabra | servicios/clasificacion_ia.py:233 | true iff some keyword occurs in the text |
| Clasificador.ConfianzaTexto | servicios/clasificacion_ia.py:226-242 | 0.90 iff a keyword of the category occurs in the lower-cased description, else 0.80 |
| Clasificador.RecomendacionGenerica | servicios/clasificacion_ia.py:269-285 | the standard-protocol text iff the category is unknown |
| Clasificador.ClasificarTexto | servicios/clasificacion_ia.py:173-266 | always a valid category with confidence in [0,1]; on success, the keyword confidence and the generic recommendation; `soporte` at 0.70 or 0.60 on failure |
| Validacion.EnLista | esquemas/llamada.py:17-24 | accepted iff the lower-cased value is allowed; the stored value is lower-cased |
| Validacion.EnListaIdempotente | esquemas/usuario.py:15-22 | validating an accepted value again gives the same value |
| Validacion.EnListaMinusculas | esquemas/usuario.py:15-22 | on lower-case input, validation is plain membership |
| Validacion.EnListaOpcional | esquemas/llamada.py:68-77 | an absent optional value passes as absent; a present one passes iff its lower-cased form is allowed |
| Validacion.SinZ | esquemas/llamada.py:97 | after the `Z` to `+00:00` rewrite no `Z` remains; text without `Z` is unchanged |
| Validacion.SinZPorPartes | esquemas/llamada.py:97 | the rewrite goes piece by piece: each `Z` becomes `+00:00` and every other character stays, in order |
| Validacion.SinZSufijo | esquemas/llamada.py:97 | a time with a trailing `Z` and no other `Z` is read with the `+00:00` offset, the rest unchanged |
| Validacion.SinZLongitud | esquemas/llamada.py:97 | each `Z` adds five characters |
| Text.ReplaceChar | esquemas/llamada.py:97 | `s.replace(c, rep)` leaves text without `c` unchanged, leaves no `c` when `rep` has none, and brings in no character outside `s` and `rep` |
| Text.ReplaceCharAppend | esquemas/llamada.py:97 | `replace` on a concatenation is the concatenation of the replaced pieces |
| Text.ReplaceCharOne | esquemas/llamada.py:97 | `replace` on one character gives the replacement for the target and keeps any other character |
| Text.ReplaceCharLength | esquemas/llamada.py:97 | each replaced character changes the length by the replacement's length minus one |
| Validacion.FechaHoraIso | esquemas/llamada.py:96-99 | a time without `Z` is parsed as written; a time whose one `Z` is the last character is parsed with `+00:00` in its place |
| EsquemaClasificacion.ValidarCategoria | esquemas/clasificacion_ia.py:15-22 | accepted iff the lower-cased label is a category, and stored lower-cased |
| EsquemaClasificacion.ValidarCreate | esquemas/clasificacion_ia.py:9-27 | valid iff the category, the confidence in [0,1] and a positive call id all hold; the failing fields are exactly those reported |
| EsquemaClasificacion.ValidarCreateIdempotente | esquemas/clasificacion_ia.py:15-22 | a validated create validates to itself |
| EsquemaClasificacion.ValidarUpdate | esquemas/clasificacion_ia.py:35-51 | absent fields pass; present ones are checked as on create; the errors are exactly the failing fields |
| EsquemaClasificacion.VolcarParchea | crud/clasificacion_ia.py:149-151 | applying the dumped fields one by one equals patching the supplied fields |
| EsquemaClasificacion.ValidarTextoRequest | esquemas/clasificacion_ia.py:63-65 | a description is accepted iff it is non-empty |
| EsquemaClasificacion.ValidarTextoResponse | esquemas/clasificacion_ia.py:68-81 | the response is valid iff its category and confidence are |
| EsquemaClasificacion.ClasificacionDeLlamadaEsValida | servicios/clasificacion_ia.py:149-170 | whatever the model replies, the call classification, stored for an existing call, passes the create schema unchanged |
| EsquemaClasificacion.ClasificacionDeTextoEsValida | servicios/clasificacion_ia.py:247-266 | whatever the model replies, the text classification passes the response schema unchanged |
| EsquemaLlamada.ActualizablesSonAdmitidos | esquemas/llamada.py:68-88 | the types and outcomes an update accepts are strict subsets of those a create accepts |
| EsquemaLlamada.ErroresCampos | esquemas/llamada.py:10-38 | each of number, duration, type, outcome and user id is reported iff it fails its constraint, and nothing else is reported |
| EsquemaLlamada.ValidarCreate | esquemas/llamada.py:10-56 | valid iff each field check passes and a given date-time is ISO; a failure reports exactly the failing fields, or only the date-time error when every field passes; a missing date-time becomes `ahora`; type and outcome are stored lower-cased |
| EsquemaLlamada.CreateTieneFechaHora | esquemas/llamada.py:44-56 | a validated create always carries an ISO date-time |
| EsquemaLlamada.ValidarCreateIdempotente | esquemas/llamada.py:36-56 | a validated create validates to itself, at any later clock |
| EsquemaLlamada.ErroresAtencion | esquemas/llamada.py:61-63 | each of user id, number and duration is reported iff present and out of range |
| EsquemaLlamada.ErroresDescripcion | esquemas/llamada.py:68-100 | each of type, outcome and date-time is reported iff present and refused |
| EsquemaLlamada.ValidarUpdate | esquemas/llamada.py:59-100 | valid iff every supplied field passes; the errors are exactly the failing fields; on success the supplied type and outcome are lower-cased and nothing else changes |
| EsquemaLlamada.VolcarParchea | crud/llamada.py:143-145 | applying the dumped fields one by one equals patching the supplied fields |
| EsquemaUsuario.ValidarCreate | esquemas/usuario.py:9-27 | valid iff name length 1..100, a normalisable e-mail, an allowed role and a password of at least 6 characters |
| EsquemaUsuario.ValidarCreateIdempotente | esquemas/usuario.py:15-22 | a validated create validates to itself when e-mail normalisation is idempotent |
| EsquemaUsuario.ValidarUpdate | esquemas/usuario.py:30-46 | absent fields pass; present ones are checked as on create; the errors are exactly the failing fields |
| EsquemaUsuario.VolcarParchea | crud/usuario.py:117-123 | applying the dumped fields one by one equals patching the supplied fields |
| EsquemaUsuario.Respuesta | esquemas/usuario.py:49-51 | the response carries the id, name, e-mail and role of the row |
| EsquemaUsuario.RespuestaSinPassword | esquemas/usuario.py:49-51 | the response does not depend on the stored password |
| EsquemaMetrica.ValidarCreate | esquemas/metrica.py:10-35 | valid iff an ISO date, a non-negative count and average, and a satisfaction absent or in [1,5]; the value is unchanged |
| EsquemaMetrica.ValidarUpdate | esquemas/metrica.py:38-55 | absent fields pass; present ones are checked as on create |
| EsquemaMetrica.VolcarParchea | crud/metrica.py:135-137 | applying the dumped fields one by one equals patching the supplied fields |
| EsquemaReporte.ValidarCreate | esquemas/reporte.py:15-35 | valid iff the author id is positive and a given date is ISO; the date check runs only after the id passes; a missing date becomes `ahora` |
| EsquemaReporte.ValidarCreateIdempotente | esquemas/reporte.py:23-35 | a validated create validates to itself, at any later clock |
| EsquemaReporte.ValidarUpdate | esquemas/reporte.py:38-54 | absent fields pass; present ones are checked as on create |
| EsquemaReporte.VolcarParchea | crud/reporte.py:140-142 | applying the dumped fields one by one equals patching the supplied fields |
| Partial.SetAttrs | crud/usuario.py:122-123 | the `setattr` loop leaves the record equal to the fields applied in order |
| Partial.ApplyAllAppend | crud/usuario.py:122-123 | applying two field lists in turn equals applying their concatenation |
| Query.NewId | modelos/usuario.py:18 | a new id is larger than every existing id: 1 in an empty table, one past the largest otherwise |
| Query.First | crud/usuario.py:67 | `.first()` finds a row iff some row matches, and the row it finds matches |
| Query.FirstOfUnique | crud/metrica.py:72 | when exactly one row matches, `.first()` returns it |
| Query.SortDesc | crud/llamada.py:89 | `order_by(desc)` is a permutation of its input in descending key order |
| Query.Page | crud/usuario.py:93 | `offset(skip).limit(limit)` is the window of at most `limit` rows starting at `skip` |
| Query.PagesTile | crud/usuario.py:93 | consecutive pages tile the listing without gaps or overlaps |
| Query.TextLeTotal | crud/llamada.py:89 | SQLite's text order on the stored date strings is total |
| Query.TextLeTrans | crud/llamada.py:89 | SQLite's text order is transitive |
| Query.TextLeAntisym | crud/llamada.py:89 | SQLite's text order is antisymmetric |
| Query.ListSorted | crud/llamada.py:80-89 | a filtered sorted listing is a page of a sorted permutation of exactly the matching rows |
| Query.ListUnordered | crud/usuario.py:88-93 | a filtered listing is a page of a permutation of exactly the matching rows |
| Consultas.ObtenerPorId | crud/usuario.py:53 | a row is found iff the id is a key, and it is that key's row |
| Consultas.ObtenerUsuarioPorEmail | crud/usuario.py:67 | a user is found iff one has that e-mail, and the user found has it |
| Consultas.PorEmailEsElUnico | crud/usuario.py:67 | while e-mails are unique, the lookup returns the one user with that e-mail |
| Consultas.EmailUnicoAlEscribir | modelos/usuario.py:20 | writing a row whose e-mail is free keeps e-mails unique |
| Consultas.ObtenerUsuarios | crud/usuario.py:88-93 | a page of the users with the given role, or of all users when the role is empty or absent; a large first page holds all of them |
| Consultas.ObtenerLlamadas | crud/llamada.py:80-89 | a page of the calls passing the given filters, latest first; a large first page holds all of them |
| Consultas.ObtenerLlamadasPorUsuario | crud/llamada.py:110 | as written: the rows are stored calls, and belong to the user for every id but 0 |
| Consultas.LlamadasPorUsuarioCero | crud/llamada.py:82-83 | with user id 0 the by-user listing is the unfiltered listing |
| Consultas.ObtenerLlamadasDeUsuario | crud/llamada.py:92-110 | a page of the user's calls, latest first |
| Consultas.LlamadasPorUsuarioCoinciden | crud/llamada.py:110 | for every id but 0 the as-written listing equals the corrected one |
| Consultas.SinLlamadasDeUsuario | crud/llamada.py:92-110 | a user with no calls gets an empty listing |
| Consultas.LlamadasDelUsuarioCero | crud/llamada.py:82-83 | with one call by some user, asking for user 0 lists that call as written and nothing when corrected |
| Consultas.ObtenerClasificacionPorLlamada | crud/clasificacion_ia.py:86 | found iff some classification names the call, and the one found does |
| Consultas.PorLlamadaEsLaUnica | crud/clasificacion_ia.py:86 | while each call has at most one classification, the lookup returns it |
| Consultas.LlamadaUnicaAlEscribir | modelos/clasificacion_ia.py:19 | writing a classification for a free call keeps one classification per call |
| Consultas.ObtenerClasificaciones | crud/clasificacion_ia.py:109-116 | a page of the classifications of the category and at least the minimum confidence, most confident first |
| Consultas.ObtenerMetricaPorFecha | crud/metrica.py:72 | found iff some metric has that date, and the one found does |
| Consultas.PorFechaEsLaUnica | crud/metrica.py:72 | while dates are unique, the lookup returns the one metric of that date |
| Consultas.FechaUnicaAlEscribir | modelos/metrica.py:24-26 | writing a metric with a free date keeps dates unique |
| Consultas.FechaLibreParaMetrica | crud/metrica.py:129-132 | keeping its own date or taking an unused one leaves the date free among the other metrics |
| Consultas.ObtenerMetricas | crud/metrica.py:95-102 | a page of the metrics dated within the bounds, latest date first |
| Consultas.ObtenerReportes | crud/reporte.py:77-86 | a page of the reports of the author within the date bounds, latest first |
| Consultas.ObtenerReportesPorUsuario | crud/reporte.py:107 | as written: the rows are stored reports, and by the user for every id but 0 |
| Consultas.ReportesPorUsuarioCero | crud/reporte.py:79-80 | with user id 0 the by-user listing is the unfiltered listing |
| Consultas.ObtenerReportesDeUsuario | crud/reporte.py:89-107 | a page of the user's reports, latest first |
| Consultas.ReportesPorUsuarioCoinciden | crud/reporte.py:107 | for every id but 0 the as-written listing equals the corrected one |
| Consultas.SinReportesDeUsuario | crud/reporte.py:89-107 | a user with no reports gets an empty listing |
| Consultas.ReportesDelUsuarioCero | crud/reporte.py:79-80 | with one report by some user, asking for user 0 lists that report as written and nothing when corrected |
| Almacen.FechaUnicaTrasActualizar | crud/metrica.py:128-145 | an update that passes the date check keeps dates unique, so its commit cannot fail |
| Almacen.IdNuevo | modelos/usuario.py:18 | the new id is positive and not yet used |
| Almacen.BaseDeDatos.CrearUsuario | crud/usuario.py:12-39 | fails iff the e-mail is taken, changing nothing; otherwise adds exactly the user with the hashed password under a fresh positive id |
| Almacen.BaseDeDatos.ConPasswordHasheada | crud/usuario.py:119-121 | a supplied password is replaced by its hash and nothing else changes |
| Almacen.BaseDeDatos.ActualizarUsuario | crud/usuario.py:96-131 | `None` iff the id is unknown; fails iff the new e-mail belongs to another user, changing nothing; otherwise the row becomes the patched user with a hashed password |
| Almacen.BaseDeDatos.EliminarUsuario | crud/usuario.py:134-151 | `False` iff the user is unknown; fails iff some call or report names the user, deleting nothing; otherwise exactly that user is removed; no reference is left dangling |
| Almacen.BaseDeDatos.CrearLlamada | crud/llamada.py:11-41 | fails iff the user does not exist, changing nothing; otherwise adds exactly the call under a fresh positive id |
| Almacen.BaseDeDatos.ActualizarLlamada | crud/llamada.py:113-149 | `None` iff the id is unknown; fails iff a supplied user does not exist; otherwise the row becomes the patched call |
| Almacen.BaseDeDatos.EliminarLlamada | crud/llamada.py:152-169 | `False` iff the call is unknown; fails iff a classification names the call, deleting nothing; otherwise exactly that call is removed; no reference is left dangling |
| Almacen.BaseDeDatos.CrearClasificacion | crud/clasificacion_ia.py:12-52 | fails iff the call is missing or already classified, with the matching error; otherwise adds exactly the classification under a fresh positive id |
| Almacen.BaseDeDatos.ActualizarClasificacion | crud/clasificacion_ia.py:119-159 | `None` iff the id is unknown; fails iff a supplied call is missing (error `LlamadaNoExiste`) or the patched call is already classified elsewhere (error `ConflictoAlActualizar`), changing nothing; otherwise the row becomes the patched classification |
| Almacen.BaseDeDatos.EliminarClasificacion | crud/clasificacion_ia.py:162-179 | true iff the classification existed; it is removed and nothing else changes |
| Almacen.BaseDeDatos.CrearMetrica | crud/metrica.py:12-44 | fails iff the date already has a metric; otherwise adds exactly the metric under a fresh positive id |
| Almacen.BaseDeDatos.ActualizarMetrica | crud/metrica.py:105-145 | `None` iff the id is unknown; fails iff it moves to a date another metric has; otherwise the row becomes the patched metric |
| Almacen.BaseDeDatos.EliminarMetrica | crud/metrica.py:148-165 | true iff the metric existed; it is removed and nothing else changes |
| Almacen.BaseDeDatos.CrearReporte | crud/reporte.py:11-38 | fails iff the author does not exist; otherwise adds exactly the report under a fresh positive id |
| Almacen.BaseDeDatos.ActualizarReporte | crud/reporte.py:110-146 | `None` iff the id is unknown; fails iff a supplied author does not exist; otherwise the row becomes the patched report |
| Almacen.BaseDeDatos.EliminarReporte | crud/reporte.py:149-166 | true iff the report existed; it is removed and nothing else changes |
| Auth.ClaimsDeAcceso | auth.py:62-85 | the signed claims are the data plus `exp`, which is the given lifetime past now, or 30 minutes when the lifetime is absent or zero |
| Auth.DeltaCeroUsaDefecto | auth.py:74-77 | a zero lifetime gets the default 1800 seconds, like a missing one |
| Auth.VerificarToken | auth.py:88-125 | the payload iff the token decodes; each failure is a 401 with the Bearer challenge |
| Auth.EnteroDe | auth.py:157-164 | `int()` keeps an integer subject and refuses a structured one |
| Auth.ObtenerUsuarioActual | auth.py:128-174 | the user iff the token is valid, its subject converts to an int and that id exists; every failure is a 401 with the Bearer challenge (for subjects within SQLite's 64-bit integer range) |
| Auth.ObtenerUsuarioActualOpcional | auth.py:177-197 | a user iff a non-empty token resolves; never an error |
| Auth.LoginResuelveAlUsuario | rutas/usuario.py:192 | a token made at login for a user resolves back to that user, in both variants |

## Left out

- The language-model client, the network and the prompts are not modelled. The model's answer, or the exception the call raised, is an input (`ModelReply`). So is `json.loads` with the read of `"clasificacion"` (`decode`). The description built from the call's duration feeds only the prompt.
- `str.lower()` is modelled for ASCII letters only. Unicode case mapping is not modelled.
- bcrypt hashing and its salt are a fixed function `hash`. `verificar_password` is not modelled.
- JWT signing and decoding are a function `decodificar` from token to outcome. The clock is `ahora`, and `int()` on a text is `parse`. `datetime.fromisoformat` and `date.fromisoformat` are predicates (`esIso`, `esFecha`). E-mail validation (`EmailStr`) is a normalising function.
- The SQLAlchemy session, the FastAPI routes and `main.py` are not modelled. Each crud call is one atomic change of the maps.
- Sub-second `timedelta` values are not modelled: the lifetime is whole seconds.
- Floats are `real`. `round()` in the metric routes and float rounding are not modelled.
- Rows with equal sort keys come out in one fixed order of the model's choosing. SQLite leaves that order unspecified.
- Negative `skip` or `limit` are not modelled: both are `nat`.
- Ids and integer columns (`duracion_segundos`, `usuario_id`, `total_llamadas`, path ids, a token's subject) are unbounded `int`s. SQLite's INTEGER is 64-bit, and a value outside -2**63 .. 2**63 - 1 makes the driver raise `OverflowError` when it is bound; nothing catches it, so the request ends in a server error. The model instead stores such a value, or answers "not found" for such an id.
- A delete blocked by a referring row is an error result here (`FilaReferenciada`). In the source it is an `IntegrityError` that nothing catches, so the route answers with a server error.
- An explicit `null` for a NOT NULL column in an update (for example `password: null`) is not modelled. That case would make the commit fail.
- Error messages are modelled as texts only where the classification result carries them. Pydantic reports the failing fields as a set, with no order.
- Almacen.BaseDeDatos.CrearLlamada: requires the date-time that the create schema always supplies (`EsquemaLlamada.CreateTieneFechaHora`), instead of modelling a missing one.
- Almacen.BaseDeDatos.CrearReporte: requires the date that the create schema always supplies, for the same reason.
- Query.NewId: new ids are one past the largest id in the table. SQLite can hand out any unused rowid once the largest id reaches its maximum, and that case is not modelled.
- The `obtener_*` lookups by primary key are all `Consultas.ObtenerPorId` over the table's map.
- `ClasificacionIACreateAuto`, `UsuarioLogin` and `TokenResponse` are not modelled separately. `ClasificacionIACreateAuto` checks only `llamada_id > 0`, `UsuarioLogin` checks only its e-mail with `EmailStr`, and `TokenResponse` has no checks of its own.
- Auth.ClaimsDeAcceso: a zero `expires_delta` is falsy, so it gets the default 30 minutes. This follows the code, not the "expires after the given delta" reading.
- crear_llamada, crear_reporte, actualizar_llamada and actualizar_reporte commit without an exception handler. With the model's inputs, only an explicit `null` on a NOT NULL column could make their commit fail, and that case is not modelled (see above).

## Findings

| source | as written | input that shows it | evidently intended | confidence | as-written member | corrected member |
|---|---|---|---|---|---|---|
| crud/llamada.py:110 | `obtener_llamadas_por_usuario` delegates to `obtener_llamadas`, whose `if usuario_id:` skips the filter for id 0 | a table holding one call of user 1, asked for the calls of user 0 (reachable from the by-user route): the call is listed | only the calls of the given user; none for user 0, which never exists | not executed | Consultas.LlamadasDelUsuarioCero | Consultas.ObtenerLlamadasDeUsuario |
| crud/reporte.py:107 | `obtener_reportes_por_usuario` delegates to `obtener_reportes`, whose `if generado_por:` skips the filter for id 0 | a table holding one report of user 1, asked for the reports of user 0: the report is listed | only the reports of the given user; none for user 0 | not executed | Consultas.ReportesDelUsuarioCero | Consultas.ObtenerReportesDeUsuario |

=== FILE: almacen.dfy ===
/** The write side of the crud package: a database session over the five
    tables. Each crud call is one atomic change of the maps, committed or
    rolled back as a whole. An `IntegrityError` on commit is the unique
    constraint of modelos/ failing: the change is rolled back and the call
    fails. The bcrypt hash is the function `hash`, fixed for the session. */
module Almacen {
  import opened Wrappers
  import opened Query
  import opened ModeloUsuario
  import opened ModeloLlamada
  import opened ModeloClasificacion
  import opened ModeloMetrica
  import opened ModeloReporte
  import opened Consultas
  import Partial
  import EsquemaUsuario
  import EsquemaLlamada
  import EsquemaClasificacion
  import EsquemaMetrica
  import EsquemaReporte

  /** The `ValueError`s the crud functions raise. */
  datatype ErrorCrud =
    | EmailYaRegistrado(email: string)
    | UsuarioNoExiste(usuarioId: int)
    | LlamadaNoExiste(llamadaId: int)
    | LlamadaYaClasificada(llamadaId: int)
    | FechaYaRegistrada(fecha: string)
    | ConflictoAlActualizar
    | FilaReferenciada

  /** Ids that SQLite hands out are positive. */
  predicate IdsPositivos(ks: set<int>) {
    forall k :: k in ks ==> k > 0
  }

  /** Every call and report names a stored user, and every classification
      names a stored call: the crud functions check a reference before they
      write it, and a delete that would leave one dangling fails. */
  predicate Referencias(usuarios: map<int, Usuario>, llamadas: map<int, Llamada>,
                        clasificaciones: map<int, ClasificacionIA>, reportes: map<int, Reporte>) {
    (forall k :: k in llamadas ==> llamadas[k].usuarioId in usuarios)
    && (forall k :: k in reportes ==> reportes[k].generadoPor in usuarios)
    && (forall k :: k in clasificaciones ==> clasificaciones[k].llamadaId in llamadas)
  }

  /** Some call or report names the user. */
  predicate UsuarioReferenciado(llamadas: map<int, Llamada>, reportes: map<int, Reporte>, id: int) {
    (exists k :: k in llamadas && llamadas[k].usuarioId == id)
    || (exists k :: k in reportes && reportes[k].generadoPor == id)
  }

  /** The update moves the metric to a date that another metric has. */
  predicate FechaOcupada(m: map<int, Metrica>, id: int, p: EsquemaMetrica.MetricaUpdate)
    requires id in m
  {
    p.fecha.Some? && p.fecha.value != m[id].fecha && ObtenerMetricaPorFecha(m, p.fecha.value).Some?
  }

  /** An update of a metric that the date check lets through keeps dates
      unique, so the unique constraint never fails on its commit. */
  lemma FechaUnicaTrasActualizar(m: map<int, Metrica>, id: int, p: EsquemaMetrica.MetricaUpdate)
    requires FechaUnica(m) && id in m
    requires !FechaOcupada(m, id, p)
    ensures FechaUnica(m[id := EsquemaMetrica.Parchear(m[id], p)])
  {
    var nuevo := EsquemaMetrica.Parchear(m[id], p);
    FechaLibreParaMetrica(m, id, nuevo.fecha);
    FechaUnicaAlEscribir(m, id, nuevo);
  }

  /** The id a new row gets is positive and free. */
  lemma IdNuevo<T>(m: map<int, T>)
    requires IdsPositivos(m.Keys)
    ensures NewId(m.Keys) > 0 && NewId(m.Keys) !in m
  {
  }

  class BaseDeDatos {
    var usuarios: map<int, Usuario>
    var llamadas: map<int, Llamada>
    var clasificaciones: map<int, ClasificacionIA>
    var metricas: map<int, Metrica>
    var reportes: map<int, Reporte>
    const hash: string -> string

    /** The unique constraints of the tables, positive ids, and no
        reference to a missing row. */
    ghost predicate Valid()
      reads this
    {
      IdsPositivos(usuarios.Keys) && IdsPositivos(llamadas.Keys) && IdsPositivos(clasificaciones.Keys)
      && IdsPositivos(metricas.Keys) && IdsPositivos(reportes.Keys)
      && EmailUnico(usuarios) && LlamadaUnica(clasificaciones) && FechaUnica(metricas)
      && Referencias(usuarios, llamadas, clasificaciones, reportes)
    }

    constructor (hash: string -> string)
      ensures Valid()
      ensures usuarios == map[] && llamadas == map[] && clasificaciones == map[] && metricas == map[] && reportes == map[]
      ensures this.hash == hash
    {
      usuarios, llamadas, clasificaciones, metricas, reportes := map[], map[], map[], map[], map[];
      this.hash := hash;
    }

    // ------------------------------------------------------------ usuarios

    /** `crear_usuario`: stores the user with the hash of the password. A
        taken e-mail makes the commit fail and nothing is added. */
    method CrearUsuario(u: EsquemaUsuario.UsuarioCreate) returns (r: Result<Row<Usuario>, ErrorCrud>)
      requires Valid()
      modifies this
      ensures Valid()
      ensures r.Failure? <==> ObtenerUsuarioPorEmail(old(usuarios), u.email).Some?
      ensures r.Failure? ==> r.error == EmailYaRegistrado(u.email) && usuarios == old(usuarios)
      ensures r.Success? ==>
                r.value.id > 0 && r.value.id !in old(usuarios)
                && r.value.rec == Usuario(u.nombre, u.email, hash(u.password), u.rol)
                && usuarios == old(usuarios)[r.value.id := r.value.rec]
      ensures llamadas == old(llamadas) && clasificaciones == old(clasificaciones)
              && metricas == old(metricas) && reportes == old(reportes)
    {
      if ObtenerUsuarioPorEmail(usuarios, u.email).Some? {
        return Failure(EmailYaRegistrado(u.email));
      }
      var id := NewId(usuarios.Keys);
      IdNuevo(usuarios);
      var fila := Usuario(u.nombre, u.email, hash(u.password), u.rol);
      EmailUnicoAlEscribir(usuarios, id, fila);
      usuarios := usuarios[id := fila];
      r := Success(Row(id, fila));
    }

    /** The update with a supplied password replaced by its hash. */
    function ConPasswordHasheada(p: EsquemaUsuario.UsuarioUpdate): (q: EsquemaUsuario.UsuarioUpdate)
      ensures q.nombre == p.nombre && q.email == p.email && q.rol == p.rol
      ensures p.password.None? ==> q.password.None?
      ensures p.password.Some? ==> q.password == Some(hash(p.password.value))
    {
      if p.password.Some? then p.(password := Some(hash(p.password.value))) else p
    }

    /** `actualizar_usuario`: `None` for an unknown id; otherwise the
        supplied fields, the password hashed, replace the stored ones, unless
        the new e-mail belongs to another user, in which case the commit
        fails and the row is left as it was. */
    method ActualizarUsuario(id: int, p: EsquemaUsuario.UsuarioUpdate) returns (r: Result<Option<Row<Usuario>>, ErrorCrud>)
      requires Valid()
      modifies this
      ensures Valid()
      ensures r == Success(None) <==> id !in old(usuarios)
      ensures r.Failure? <==>
                id in old(usuarios)
                && ObtenerUsuarioPorEmail(old(usuarios) - {id},
                                          EsquemaUsuario.Parchear(old(usuarios)[id], ConPasswordHasheada(p)).email).Some?
      ensures r.Failure? ==> r.error == ConflictoAlActualizar && usuarios == old(usuarios)
      ensures r.Success? && r.value.Some? ==>
                id in old(usuarios)
                && r.value.value == Row(id, EsquemaUsuario.Parchear(old(usuarios)[id], ConPasswordHasheada(p)))
                && usuarios == old(usuarios)[id := r.value.value.rec]
      ensures r.Success? && r.value.Some? && p.password.Some? ==> r.value.value.rec.password == hash(p.password.value)
      ensures r == Success(None) ==> usuarios == old(usuarios)
      ensures llamadas == old(llamadas) && clasificaciones == old(clasificaciones)
              && metricas == old(metricas) && reportes == old(reportes)
    {
      if id !in usuarios {
        return Success(None);
      }
      var q := ConPasswordHasheada(p);
      var nuevo := Partial.SetAttrs(usuarios[id], EsquemaUsuario.Volcar(q), ModeloUsuario.Asignar);
      EsquemaUsuario.VolcarParchea(usuarios[id], q);
      if ObtenerUsuarioPorEmail(usuarios - {id}, nuevo.email).Some? {
        return Failure(ConflictoAlActualizar);
      }
      EmailUnicoAlEscribir(usuarios, id, nuevo);
      usuarios := usuarios[id := nuevo];
      r := Success(Some(Row(id, nuevo)));
    }

    /** `eliminar_usuario`: `False` for an unknown id. The relationships to
        the user's calls and reports have no delete cascade, so deleting a
        user they name sets their NOT NULL `usuario_id` or `generado_por` to
        NULL; the commit then raises `IntegrityError` and nothing is
        deleted. */
    method EliminarUsuario(id: int) returns (r: Result<bool, ErrorCrud>)
      requires Valid()
      modifies this
      ensures Valid()
      ensures r == Success(false) <==> id !in old(usuarios)
      ensures r.Failure? <==> id in old(usuarios) && UsuarioReferenciado(old(llamadas), old(reportes), id)
      ensures r.Failure? ==> r.error == FilaReferenciada && usuarios == old(usuarios)
      ensures r.Success? ==> usuarios == old(usuarios) - {id}
      ensures llamadas == old(llamadas) && clasificaciones == old(clasificaciones)
              && metricas == old(metricas) && reportes == old(reportes)
    {
      if id !in usuarios {
        return Success(false);
      }
      if UsuarioReferenciado(llamadas, reportes, id) {
        return Failure(FilaReferenciada);
      }
      usuarios := usuarios - {id};
      r := Success(true);
    }

    // ------------------------------------------------------------ llamadas

    /** `crear_llamada`: the user must exist; the call is stored as given.
        The validated create shape always carries a `fecha_hora`. */
    method CrearLlamada(l: EsquemaLlamada.LlamadaCreate) returns (r: Result<Row<Llamada>, ErrorCrud>)
      requires Valid() && l.fechaHora.Some?
      modifies this
      ensures Valid()
      ensures r.Failure? <==> ObtenerPorId(old(usuarios), l.usuarioId).None?
      ensures r.Failure? ==> r.error == UsuarioNoExiste(l.usuarioId) && llamadas == old(llamadas)
      ensures r.Success? ==>
                r.value.id > 0 && r.value.id !in old(llamadas)
                && r.value.rec == Llamada(l.usuarioId, l.numeroCliente, l.duracionSegundos, l.tipo, l.resultado, l.fechaHora.value)
                && llamadas == old(llamadas)[r.value.id := r.value.rec]
      ensures usuarios == old(usuarios) && clasificaciones == old(clasificaciones)
              && metricas == old(metricas) && reportes == old(reportes)
    {
      if ObtenerPorId(usuarios, l.usuarioId).None? {
        return Failure(UsuarioNoExiste(l.usuarioId));
      }
      var id := NewId(llamadas.Keys);
      IdNuevo(llamadas);
      var fila := Llamada(l.usuarioId, l.numeroCliente, l.duracionSegundos, l.tipo, l.resultado, l.fechaHora.value);
      llamadas := llamadas[id := fila];
      r := Success(Row(id, fila));
    }

    /** `actualizar_llamada`: `None` for an unknown id; a supplied
        `usuario_id` must name a user; then the supplied fields replace the
        stored ones. */
    method ActualizarLlamada(id: int, p: EsquemaLlamada.LlamadaUpdate) returns (r: Result<Option<Row<Llamada>>, ErrorCrud>)
      requires Valid()
      modifies this
      ensures Valid()
      ensures r == Success(None) <==> id !in old(llamadas)
      ensures r.Failure? <==> id in old(llamadas) && p.usuarioId.Some? && ObtenerPorId(old(usuarios), p.usuarioId.value).None?
      ensures r.Failure? ==> r.error == UsuarioNoExiste(p.usuarioId.value) && llamadas == old(llamadas)
      ensures r.Success? && r.value.Some? ==>
                id in old(llamadas)
                && r.value.value == Row(id, EsquemaLlamada.Parchear(old(llamadas)[id], p))
                && llamadas == old(llamadas)[id := r.value.value.rec]
      ensures r == Success(None) ==> llamadas == old(llamadas)
      ensures usuarios == old(usuarios) && clasificaciones == old(clasificaciones)
              && metricas == old(metricas) && reportes == old(reportes)
    {
      if id !in llamadas {
        return Success(None);
      }
      if p.usuarioId.Some? && ObtenerPorId(usuarios, p.usuarioId.value).None? {
        return Failure(UsuarioNoExiste(p.usuarioId.value));
      }
      var nuevo := Partial.SetAttrs(llamadas[id], EsquemaLlamada.Volcar(p), ModeloLlamada.Asignar);
      EsquemaLlamada.VolcarParchea(llamadas[id], p);
      llamadas := llamadas[id := nuevo];
      r := Success(Some(Row(id, nuevo)));
    }

    /** `eliminar_llamada`: `False` for an unknown id. A call that has a
        classification cannot go: without a delete cascade the commit sets
        the classification's NOT NULL `llamada_id` to NULL and raises
        `IntegrityError`, and nothing is deleted. */
    method EliminarLlamada(id: int) returns (r: Result<bool, ErrorCrud>)
      requires Valid()
      modifies this
      ensures Valid()
      ensures r == Success(false) <==> id !in old(llamadas)
      ensures r.Failure? <==> id in old(llamadas) && ObtenerClasificacionPorLlamada(old(clasificaciones), id).Some?
      ensures r.Failure? ==> r.error == FilaReferenciada && llamadas == old(llamadas)
      ensures r.Success? ==> llamadas == old(llamadas) - {id}
      ensures usuarios == old(usuarios) && clasificaciones == old(clasificaciones)
              && metricas == old(metricas) && reportes == old(reportes)
    {
      if id !in llamadas {
        return Success(false);
      }
      if ObtenerClasificacionPorLlamada(clasificaciones, id).Some? {
        return Failure(FilaReferenciada);
      }
      llamadas := llamadas - {id};
      r := Success(true);
    }

    // ----------------------------------------------------- clasificaciones

    /** `crear_clasificacion_ia`: the call must exist and have no
        classification yet. */
    method CrearClasificacion(c: EsquemaClasificacion.ClasificacionIACreate) returns (r: Result<Row<ClasificacionIA>, ErrorCrud>)
      requires Valid()
      modifies this
      ensures Valid()
      ensures r.Failure? <==>
                ObtenerPorId(old(llamadas), c.llamadaId).None?
                || ObtenerClasificacionPorLlamada(old(clasificaciones), c.llamadaId).Some?
      ensures r.Failure? && ObtenerPorId(old(llamadas), c.llamadaId).None? ==> r.error == LlamadaNoExiste(c.llamadaId)
      ensures r.Failure? && ObtenerPorId(old(llamadas), c.llamadaId).Some? ==> r.error == LlamadaYaClasificada(c.llamadaId)
      ensures r.Failure? ==> clasificaciones == old(clasificaciones)
      ensures r.Success? ==>
                r.value.id > 0 && r.value.id !in old(clasificaciones)
                && r.value.rec == ClasificacionIA(c.llamadaId, c.categoria, c.confianza, c.recomendacionAgente)
                && clasificaciones == old(clasificaciones)[r.value.id := r.value.rec]
      ensures usuarios == old(usuarios) && llamadas == old(llamadas)
              && metricas == old(metricas) && reportes == old(reportes)
    {
      if ObtenerPorId(llamadas, c.llamadaId).None? {
        return Failure(LlamadaNoExiste(c.llamadaId));
      }
      if ObtenerClasificacionPorLlamada(clasificaciones, c.llamadaId).Some? {
        return Failure(LlamadaYaClasificada(c.llamadaId));
      }
      var id := NewId(clasificaciones.Keys);
      IdNuevo(clasificaciones);
      var fila := ClasificacionIA(c.llamadaId, c.categoria, c.confianza, c.recomendacionAgente);
      LlamadaUnicaAlEscribir(clasificaciones, id, fila);
      clasificaciones := clasificaciones[id := fila];
      r := Success(Row(id, fila));
    }

    /** `actualizar_clasificacion_ia`: `None` for an unknown id; a supplied
        `llamada_id` must name a call; a call that another classification
        already has makes the commit fail, leaving the row as it was. */
    method ActualizarClasificacion(id: int, p: EsquemaClasificacion.ClasificacionIAUpdate)
      returns (r: Result<Option<Row<ClasificacionIA>>, ErrorCrud>)
      requires Valid()
      modifies this
      ensures Valid()
      ensures r == Success(None) <==> id !in old(clasificaciones)
      ensures r.Failure? <==>
                id in old(clasificaciones)
                && ((p.llamadaId.Some? && ObtenerPorId(old(llamadas), p.llamadaId.value).None?)
                    || ObtenerClasificacionPorLlamada(old(clasificaciones) - {id},
                                                      EsquemaClasificacion.Parchear(old(clasificaciones)[id], p).llamadaId).Some?)
      ensures r.Failure? && p.llamadaId.Some? && ObtenerPorId(old(llamadas), p.llamadaId.value).None? ==>
                r.error == LlamadaNoExiste(p.llamadaId.value)
      ensures r.Failure? && !(p.llamadaId.Some? && ObtenerPorId(old(llamadas), p.llamadaId.value).None?) ==>
                r.error == ConflictoAlActualizar
      ensures r.Failure? ==> clasificaciones == old(clasificaciones)
      ensures r.Success? && r.value.Some? ==>
                id in old(clasificaciones)
                && r.value.value == Row(id, EsquemaClasificacion.Parchear(old(clasificaciones)[id], p))
                && clasificaciones == old(clasificaciones)[id := r.value.value.rec]
      ensures r == Success(None) ==> clasificaciones == old(clasificaciones)
      ensures usuarios == old(usuarios) && llamadas == old(llamadas)
              && metricas == old(metricas) && reportes == old(reportes)
    {
      if id !in clasificaciones {
        return Success(None);
      }
      if p.llamadaId.Some? && ObtenerPorId(llamadas, p.llamadaId.value).None? {
        return Failure(LlamadaNoExiste(p.llamadaId.value));
      }
      var nuevo := Partial.SetAttrs(clasificaciones[id], EsquemaClasificacion.Volcar(p), ModeloClasificacion.Asignar);
      EsquemaClasificacion.VolcarParchea(clasificaciones[id], p);
      if ObtenerClasificacionPorLlamada(clasificaciones - {id}, nuevo.llamadaId).Some? {
        return Failure(ConflictoAlActualizar);
      }
      LlamadaUnicaAlEscribir(clasificaciones, id, nuevo);
      clasificaciones := clasificaciones[id := nuevo];
      r := Success(Some(Row(id, nuevo)));
    }

    /** `eliminar_clasificacion_ia`. */
    method EliminarClasificacion(id: int) returns (eliminado: bool)
      requires Valid()
      modifies this
      ensures Valid()
      ensures eliminado <==> id in old(clasificaciones)
      ensures clasificaciones == old(clasificaciones) - {id}
      ensures usuarios == old(usuarios) && llamadas == old(llamadas)
              && metricas == old(metricas) && reportes == old(reportes)
    {
      eliminado := id in clasificaciones;
      clasificaciones := clasificaciones - {id};
    }

    // ------------------------------------------------------------ metricas

    /** `crear_metrica`: a date that already has a metric is refused. */
    method CrearMetrica(x: EsquemaMetrica.MetricaCreate) returns (r: Result<Row<Metrica>, ErrorCrud>)
      requires Valid()
      modifies this
      ensures Valid()
      ensures r.Failure? <==> ObtenerMetricaPorFecha(old(metricas), x.fecha).Some?
      ensures r.Failure? ==> r.error == FechaYaRegistrada(x.fecha) && metricas == old(metricas)
      ensures r.Success? ==>
                r.value.id > 0 && r.value.id !in old(metricas)
                && r.value.rec == Metrica(x.fecha, x.totalLlamadas, x.promedioDuracion, x.satisfaccionCliente)
                && metricas == old(metricas)[r.value.id := r.value.rec]
      ensures usuarios == old(usuarios) && llamadas == old(llamadas)
              && clasificaciones == old(clasificaciones) && reportes == old(reportes)
    {
      if ObtenerMetricaPorFecha(metricas, x.fecha).Some? {
        return Failure(FechaYaRegistrada(x.fecha));
      }
      var id := NewId(metricas.Keys);
      IdNuevo(metricas);
      var fila := Metrica(x.fecha, x.totalLlamadas, x.promedioDuracion, x.satisfaccionCliente);
      FechaUnicaAlEscribir(metricas, id, fila);
      metricas := metricas[id := fila];
      r := Success(Row(id, fila));
    }

    /** `actualizar_metrica`: `None` for an unknown id; moving the metric to
        a date another metric has is refused, while re-supplying its own
        date is not. */
    method ActualizarMetrica(id: int, p: EsquemaMetrica.MetricaUpdate) returns (r: Result<Option<Row<Metrica>>, ErrorCrud>)
      requires Valid()
      modifies this
      ensures Valid()
      ensures r == Success(None) <==> id !in old(metricas)
      ensures r.Failure? <==> id in old(metricas) && FechaOcupada(old(metricas), id, p)
      ensures r.Failure? ==> r.error == FechaYaRegistrada(p.fecha.value) && metricas == old(metricas)
      ensures r.Success? && r.value.Some? ==>
                id in old(metricas)
                && r.value.value == Row(id, EsquemaMetrica.Parchear(old(metricas)[id], p))
                && metricas == old(metricas)[id := r.value.value.rec]
      ensures r == Success(None) ==> metricas == old(metricas)
      ensures usuarios == old(usuarios) && llamadas == old(llamadas)
              && clasificaciones == old(clasificaciones) && reportes == old(reportes)
    {
      if id !in metricas {
        return Success(None);
      }
      if FechaOcupada(metricas, id, p) {
        return Failure(FechaYaRegistrada(p.fecha.value));
      }
      var nuevo := Partial.SetAttrs(metricas[id], EsquemaMetrica.Volcar(p), ModeloMetrica.Asignar);
      EsquemaMetrica.VolcarParchea(metricas[id], p);
      FechaUnicaTrasActualizar(metricas, id, p);
      metricas := metricas[id := nuevo];
      r := Success(Some(Row(id, nuevo)));
    }

    /** `eliminar_metrica`. */
    method EliminarMetrica(id: int) returns (eliminado: bool)
      requires Valid()
      modifies this
      ensures Valid()
      ensures eliminado <==> id in old(metricas)
      ensures metricas == old(metricas) - {id}
      ensures usuarios == old(usuarios) && llamadas == old(llamadas)
              && clasificaciones == old(clasificaciones) && reportes == old(reportes)
    {
      eliminado := id in metricas;
      metricas := metricas - {id};
    }

    // ------------------------------------------------------------ reportes

    /** `crear_reporte`: the author must exist; the report is stored as
        given. The validated create shape always carries a
        `fecha_generado`. */
    method CrearReporte(x: EsquemaReporte.ReporteCreate) returns (r: Result<Row<Reporte>, ErrorCrud>)
      requires Valid() && x.fechaGenerado.Some?
      modifies this
      ensures Valid()
      ensures r.Failure? <==> ObtenerPorId(old(usuarios), x.generadoPor).None?
      ensures r.Failure? ==> r.error == UsuarioNoExiste(x.generadoPor) && reportes == old(reportes)
      ensures r.Success? ==>
                r.value.id > 0 && r.value.id !in old(reportes)
                && r.value.rec == Reporte(x.generadoPor, x.fechaGenerado.value, x.descripcion)
                && reportes == old(reportes)[r.value.id := r.value.rec]
      ensures usuarios == old(usuarios) && llamadas == old(llamadas)
              && clasificaciones == old(clasificaciones) && metricas == old(metricas)
    {
      if ObtenerPorId(usuarios, x.generadoPor).None? {
        return Failure(UsuarioNoExiste(x.generadoPor));
      }
      var id := NewId(reportes.Keys);
      IdNuevo(reportes);
      var fila := Reporte(x.generadoPor, x.fechaGenerado.value, x.descripcion);
      reportes := reportes[id := fila];
      r := Success(Row(id, fila));
    }

    /** `actualizar_reporte`: `None` for an unknown id; a supplied
        `generado_por` must name a user; then the supplied fields replace the
        stored ones. */
    method ActualizarReporte(id: int, p: EsquemaReporte.ReporteUpdate) returns (r: Result<Option<Row<Reporte>>, ErrorCrud>)
      requires Valid()
      modifies this
      ensures Valid()
      ensures r == Success(None) <==> id !in old(reportes)
      ensures r.Failure? <==> id in old(reportes) && p.generadoPor.Some? && ObtenerPorId(old(usuarios), p.generadoPor.value).None?
      ensures r.Failure? ==> r.error == UsuarioNoExiste(p.generadoPor.value) && reportes == old(reportes)
      ensures r.Success? && r.value.Some? ==>
                id in old(reportes)
                && r.value.value == Row(id, EsquemaReporte.Parchear(old(reportes)[id], p))
                && reportes == old(reportes)[id := r.value.value.rec]
      ensures r == Success(None) ==> reportes == old(reportes)
      ensures usuarios == old(usuarios) && llamadas == old(llamadas)
              && clasificaciones == old(clasificaciones) && metricas == old(metricas)
    {
      if id !in reportes {
        return Success(None);
      }
      if p.generadoPor.Some? && ObtenerPorId(usuarios, p.generadoPor.value).None? {
        return Failure(UsuarioNoExiste(p.generadoPor.value));
      }
      var nuevo := Partial.SetAttrs(reportes[id], EsquemaReporte.Volcar(p), ModeloReporte.Asignar);
      EsquemaReporte.VolcarParchea(reportes[id], p);
      reportes := reportes[id := nuevo];
      r := Success(Some(Row(id, nuevo)));
    }

    /** `eliminar_reporte`. */
    method EliminarReporte(id: int) returns (eliminado: bool)
      requires Valid()
      modifies this
      ensures Valid()
      ensures eliminado <==> id in old(reportes)
      ensures reportes == old(reportes) - {id}
      ensures usuarios == old(usuarios) && llamadas == old(llamadas)
              && clasificaciones == old(clasificaciones) && metricas == old(metricas)
    {
      eliminado := id in reportes;
      reportes := reportes - {id};
    }
  }
}

=== FILE: auth.dfy ===
/** The decision logic of auth.py. Signing and checking an HS256 JSON Web
    Token (RFC 7519, section 3.2 of RFC 7518) is not part of this model: the
    outcome of `jwt.decode` on a token is given as `decodificar`. Neither is
    the clock: `ahora` is the current time in seconds since the epoch. `int()`
    on a text is given as `parse`, since Python accepts signs, surrounding
    whitespace and underscores there. */
module Auth {
  import opened Wrappers
  import opened Query
  import opened ModeloUsuario

  const AccessTokenExpireMinutes: int := 30

  /** A claim value as it appears in a JSON Web Token payload. `Structured`
      stands for a list or an object. */
  datatype Claim = Null | Bool(b: bool) | Int(i: int) | Str(s: string) | Structured

  type Claims = map<string, Claim>

  /** The claims `crear_access_token` signs: a copy of `data` with "exp" set.
      `expiraEn` is `expires_delta` in seconds; a zero delta is falsy, so it
      gets the default lifetime like a missing one. */
  function ClaimsDeAcceso(data: Claims, expiraEn: Option<int>, ahora: int): (r: Claims)
    ensures r.Keys == data.Keys + {"exp"}
    ensures forall k :: k in data && k != "exp" ==> r[k] == data[k]
    ensures expiraEn.Some? && expiraEn.value != 0 ==> r["exp"] == Int(ahora + expiraEn.value)
    ensures expiraEn.None? || expiraEn.value == 0 ==> r["exp"] == Int(ahora + 60 * AccessTokenExpireMinutes)
  {
    var expira := if expiraEn.Some? && expiraEn.value != 0 then ahora + expiraEn.value
                  else ahora + 60 * AccessTokenExpireMinutes;
    data["exp" := Int(expira)]
  }

  /** A zero lifetime does not make a token that is already expired: it
      gets the thirty minutes of a token made without one. */
  lemma DeltaCeroUsaDefecto(data: Claims, ahora: int)
    ensures ClaimsDeAcceso(data, Some(0), ahora) == ClaimsDeAcceso(data, None, ahora)
    ensures ClaimsDeAcceso(data, Some(0), ahora)["exp"] == Int(ahora + 1800)
  {
  }

  /** What `jwt.decode` did with a token: the payload, or the exception it
      raised (`ExpiredSignatureError`, `JWTClaimsError`, any other
      `JWTError`). */
  datatype Decodificado = Valido(payload: Claims) | Expirado | ClaimsIncorrectos | TokenInvalido

  /** An `HTTPException`. */
  datatype HttpError = HttpError(status: int, detalle: string, headers: map<string, string>)

  /** 401 with the `WWW-Authenticate: Bearer` challenge. */
  function NoAutorizado(detalle: string): (e: HttpError)
    ensures ComoBearer(e) && e.detalle == detalle
  {
    HttpError(401, detalle, map["WWW-Authenticate" := "Bearer"])
  }

  predicate ComoBearer(e: HttpError) {
    e.status == 401 && e.headers == map["WWW-Authenticate" := "Bearer"]
  }

  /** `verificar_token`: the payload, or one 401 per kind of failure. */
  function VerificarToken(d: Decodificado): (r: Result<Claims, HttpError>)
    ensures r.Success? <==> d.Valido?
    ensures r.Success? ==> r.value == d.payload
    ensures r.Failure? ==> ComoBearer(r.error)
    ensures d.Expirado? ==> r == Failure(NoAutorizado("Token expirado"))
  {
    match d
    case Valido(payload) => Success(payload)
    case Expirado => Failure(NoAutorizado("Token expirado"))
    case ClaimsIncorrectos => Failure(NoAutorizado("Token inválido: claims incorrectos"))
    case TokenInvalido => Failure(NoAutorizado("Token inválido. Inicie sesión nuevamente."))
  }

  /** `int(v)` on a claim value: booleans are 0 and 1, a text goes through
      `parse`, and a list or object raises `TypeError`. */
  function EnteroDe(v: Claim, parse: string -> Option<int>): (r: Option<int>)
    requires !v.Null?
    ensures v.Int? ==> r == Some(v.i)
    ensures v.Structured? ==> r.None?
  {
    match v
    case Bool(b) => Some(if b then 1 else 0)
    case Int(i) => Some(i)
    case Str(s) => parse(s)
    case Structured => None
  }

  /** `payload.get("sub")` is `None` when the key is missing or null. */
  predicate SinSujeto(payload: Claims) {
    "sub" !in payload || payload["sub"].Null?
  }

  /** `obtener_usuario_actual`: the user whose id the token's subject names,
      or a 401. Every failure is a 401 with the Bearer challenge. This holds
      for subjects within SQLite's 64-bit integer range; a larger one makes
      the driver raise `OverflowError` at the query, which is not modelled. */
  function ObtenerUsuarioActual(token: string, decodificar: string -> Decodificado,
                                usuarios: map<int, Usuario>, parse: string -> Option<int>): (r: Result<Row<Usuario>, HttpError>)
    ensures r.Failure? ==> ComoBearer(r.error)
    ensures r.Success? <==>
              decodificar(token).Valido? && !SinSujeto(decodificar(token).payload)
              && EnteroDe(decodificar(token).payload["sub"], parse).Some?
              && EnteroDe(decodificar(token).payload["sub"], parse).value in usuarios
    ensures r.Success? ==>
              var id := EnteroDe(decodificar(token).payload["sub"], parse).value;
              r.value == Row(id, usuarios[id])
    ensures decodificar(token).Valido? && SinSujeto(decodificar(token).payload) ==>
              r == Failure(NoAutorizado("Token inválido"))
  {
    var payload :- VerificarToken(decodificar(token));
    if SinSujeto(payload) then Failure(NoAutorizado("Token inválido"))
    else
      match EnteroDe(payload["sub"], parse)
      case None => Failure(NoAutorizado("Token inválido: ID de usuario inválido"))
      case Some(id) =>
        if id in usuarios then Success(Row(id, usuarios[id]))
        else Failure(NoAutorizado("Usuario no encontrado"))
  }

  /** `obtener_usuario_actual_opcional`: a missing or empty token, or any
      401 from the resolution, gives `None`; it never fails. */
  function ObtenerUsuarioActualOpcional(token: Option<string>, decodificar: string -> Decodificado,
                                        usuarios: map<int, Usuario>, parse: string -> Option<int>): (r: Option<Row<Usuario>>)
    ensures r.Some? <==>
              token.Some? && token.value != "" && ObtenerUsuarioActual(token.value, decodificar, usuarios, parse).Success?
    ensures r.Some? ==> r == Some(ObtenerUsuarioActual(token.value, decodificar, usuarios, parse).value)
  {
    if token.Some? && token.value != "" then
      match ObtenerUsuarioActual(token.value, decodificar, usuarios, parse)
      case Success(u) => Some(u)
      case Failure(_) => None
    else None
  }

  /** The token the login route makes, with subject `str(id)`, resolves to
      that user while it is valid and the user still exists. */
  lemma LoginResuelveAlUsuario(id: int, usuarios: map<int, Usuario>, token: string,
                               decodificar: string -> Decodificado, parse: string -> Option<int>,
                               mostrar: int -> string, ahora: int)
    requires id in usuarios
    requires parse(mostrar(id)) == Some(id)
    requires var u := usuarios[id];
             decodificar(token)
             == Valido(ClaimsDeAcceso(map["sub" := Str(mostrar(id)), "email" := Str(u.email), "rol" := Str(u.rol)], None, ahora))
    ensures ObtenerUsuarioActual(token, decodificar, usuarios, parse) == Success(Row(id, usuarios[id]))
    ensures token != "" ==> ObtenerUsuarioActualOpcional(Some(token), decodificar, usuarios, parse) == Some(Row(id, usuarios[id]))
  {
    var u := usuarios[id];
    var data := map["sub" := Str(mostrar(id)), "email" := Str(u.email), "rol" := Str(u.rol)];
    assert "sub" in data && "sub" != "exp";
  }
}

=== FILE: clasificador.dfy ===
/** The decision logic of the call-classification service
    (servicios/clasificacion_ia.py). The chat-completion round trip is not
    modelled: what the model answered is an input (`ModelReply`), and so is
    `json.loads`, given as a function from the cleaned reply to the abstract
    outcome of reading its "clasificacion" member (`Parsed`). What remains is
    total: both entry points always return a classification. */
module Clasificador {
  import opened Wrappers
  import opened Text

  /** The three labels the model may answer with. */
  const Categorias: set<string> := {"venta", "soporte", "reclamo"}

  /** The call outcomes the recommendation table knows. */
  const ResultadosConRecomendacion: set<string> := {"atendida", "resuelta", "colgada", "escalada"}

  const JsonFence: string := "```json"
  const Fence: string := "```"

  /** What the chat-completion call produced: an exception (network, client,
      anything raised before the reply text is read) or the reply text. */
  datatype ModelReply = CallFailed(message: string) | Replied(content: string)

  /** `json.loads` on the cleaned reply followed by the read of the
      "clasificacion" member:
      - DecodeError: `json.JSONDecodeError`;
      - MissingLabel: the decoded value does not hold "clasificacion";
      - Label(value): the member is a string;
      - LabelUnreadable(message): any other exception while reading it (a
        non-string member, whose `.lower()` fails, or a decoded value that
        cannot be indexed by a key). */
  datatype Parsed = DecodeError | MissingLabel | Label(value: string) | LabelUnreadable(message: string)

  /** What reaches the `except` clauses: a JSON decode error, or any other
      exception with its `str(e)`. */
  datatype Falla = JsonInvalido | OtraFalla(message: string)

  /** The dictionary both entry points return. */
  datatype Clasificacion = Clasificacion(categoria: string, confianza: real, recomendacion: string)

  const ProtocoloEstandar: string := "Seguir protocolo estándar de atención."

  /** The text handed to `json.loads`: the stripped reply, with a json code
      fence, or else a bare code fence, cut away. */
  function LimpiarRespuesta(content: string): (r: string)
    ensures Stripped(r)
    ensures !Contains(Strip(content), Fence) ==> r == Strip(content)
    ensures Contains(Strip(content), Fence) ==> !Contains(r, Fence)
  {
    var s := Strip(content);
    if Contains(s, JsonFence) then
      JsonFenceHasFence(s);
      var r := Strip(SplitHead(SplitSecond(s, JsonFence), Fence));
      StripKeepsAbsent(SplitHead(SplitSecond(s, JsonFence), Fence), Fence);
      r
    else if Contains(s, Fence) then
      var r := Strip(SplitHead(SplitSecond(s, Fence), Fence));
      StripKeepsAbsent(SplitHead(SplitSecond(s, Fence), Fence), Fence);
      r
    else
      s
  }

  /** Every json fence opens with a bare fence. */
  lemma JsonFenceHasFence(s: string)
    requires Contains(s, JsonFence)
    ensures Contains(s, Fence)
  {
    var i := Find(s, JsonFence, 0).value;
    assert s[i..i + 3] == s[i..i + 7][..3];
    assert OccursAt(s, Fence, i);
  }

  /** Without a json fence, a bare fence is handled as the text between the
      first fence and the next one (or the end of the reply). */
  lemma BareFenceIsFirstPiece(content: string)
    requires !Contains(Strip(content), JsonFence) && Contains(Strip(content), Fence)
    ensures LimpiarRespuesta(content) == Strip(SplitSecond(Strip(content), Fence))
  {
    var s := Strip(content);
    SplitSecondWhole(s, Fence);
    BareCleanedTo(content, SplitSecond(s, Fence));
  }

  /** The stripped form of `pre + open + body + close + post`, for fences
      `open` and `close` that start and end with a backtick: `pre` loses its
      leading and `post` its trailing space. */
  lemma StripFenced(pre: string, open: string, body: string, close: string, post: string)
    requires open != [] && open[0] == '`' && close != [] && close[|close| - 1] == '`'
    ensures Strip(pre + open + body + close + post) == TrimLeft(pre) + open + body + close + TrimRight(post)
  {
    var m := open + body + close;
    assert m[0] == open[0] && m[|m| - 1] == close[|close| - 1];
    SeqAssoc(pre, open, body, close, post);
    StripAroundSolid(pre, m, post);
    SeqAssoc(TrimLeft(pre), open, body, close, TrimRight(post));
  }

  lemma SeqAssoc(a: string, b: string, c: string, d: string, e: string)
    ensures a + b + c + d + e == a + (b + c + d) + e
  {
  }

  /** In an already stripped reply `p + "```json" + body + "```" + q`, the
      json fence found first is the one after `p`. */
  lemma FirstJsonFence(p: string, body: string, q: string)
    requires '`' !in p
    ensures var s := p + JsonFence + body + Fence + q;
            Contains(s, JsonFence) && Find(s, JsonFence, 0) == Some(|p|)
  {
    var s := p + JsonFence + body + Fence + q;
    assert s[..|p|] == p && s[|p|..|p| + 7] == JsonFence;
    FindAfterClean(s, JsonFence, 0, |p|);
  }

  /** The piece after the first json fence of `p + "```json" + body + "```" + q`
      is `body`, possibly followed by a closing fence and more. */
  lemma JsonPiece(p: string, body: string, q: string)
    requires '`' !in p && '`' !in body
    requires q == [] || q[0] != '`'
    ensures var s := p + JsonFence + body + Fence + q;
            Contains(s, JsonFence)
            && (var u := SplitSecond(s, JsonFence);
                u == body || (|u| >= |body| + 3 && u[..|body|] == body && u[|body|..|body| + 3] == Fence))
  {
    var s := p + JsonFence + body + Fence + q;
    FirstJsonFence(p, body, q);
    var i := |p|;
    var k := i + 7 + |body|;
    assert s[i + 7..k] == body && s[k..k + 3] == Fence;
    assert k + 3 < |s| ==> s[k + 3] == q[0];
    PieceAfterJsonFence(s, i, k);
  }

  /** The json fence after the one at `i` is not before the closing fence
      at `k`, nor inside it, when nothing in between is a backtick and the
      closing fence is not followed by one. */
  lemma NextJsonFencePastClosing(s: string, i: nat, k: nat)
    requires OccursAt(s, Fence, k) && i + 7 <= k && '`' !in s[i + 7..k]
    requires k + 3 == |s| || s[k + 3] != '`'
    ensures var e := PieceEnd(s, JsonFence, i + 7);
            e == k || e >= k + 3
  {
    NoOccurrenceIn(s, JsonFence, i + 7, k);
    ClosingFenceOpensNoJsonFence(s, k);
  }

  /** The piece after a json fence at `i` is the text up to the closing
      fence at `k`, or runs past that fence. */
  lemma PieceAfterJsonFence(s: string, i: nat, k: nat)
    requires Contains(s, JsonFence) && Find(s, JsonFence, 0) == Some(i)
    requires OccursAt(s, Fence, k) && i + 7 <= k && '`' !in s[i + 7..k]
    requires k + 3 == |s| || s[k + 3] != '`'
    ensures var u := SplitSecond(s, JsonFence);
            u == s[i + 7..k]
            || (|u| >= k - i - 4 && u[..k - i - 7] == s[i + 7..k] && u[k - i - 7..k - i - 4] == Fence)
  {
    var e := PieceEnd(s, JsonFence, i + 7);
    NextJsonFencePastClosing(s, i, k);
    assert SplitSecond(s, JsonFence) == s[i + 7..e];
    if e >= k + 3 {
      SliceOfSlice(s, i + 7, e, 0, k - i - 7);
      SliceOfSlice(s, i + 7, e, k - i - 7, k - i - 4);
    }
  }

  /** The next json fence cannot start on the second or third backtick of a
      closing fence that is not followed by a backtick. */
  lemma ClosingFenceOpensNoJsonFence(s: string, k: nat)
    requires OccursAt(s, Fence, k)
    requires k + 3 == |s| || s[k + 3] != '`'
    ensures !OccursAt(s, JsonFence, k + 1) && !OccursAt(s, JsonFence, k + 2)
  {
    if k + 8 <= |s| {
      assert s[k + 1..k + 8][2] == s[k + 3];
    }
    if k + 9 <= |s| {
      assert s[k + 2..k + 9][1] == s[k + 3];
    }
  }

  /** What is left of the piece after a json fence once cut at the next
      bare fence. */
  lemma JsonPieceHead(body: string, u: string)
    requires '`' !in body
    requires u == body || (|u| >= |body| + 3 && u[..|body|] == body && u[|body|..|body| + 3] == Fence)
    ensures SplitHead(u, Fence) == body
  {
    if u == body {
      NoOccurrenceWithout(body, Fence);
    } else {
      FindAfterClean(u, Fence, 0, |body|);
    }
  }

  /** Round trip: a JSON payload without backticks, wrapped in a json fence
      with any prose before it (also without backticks) and any text after
      the closing fence that does not itself start with a backtick, is
      handed to the decoder stripped and otherwise intact. */
  lemma JsonFenceRoundTrip(pre: string, body: string, post: string)
    requires '`' !in pre && '`' !in body
    requires post == [] || post[0] != '`'
    ensures LimpiarRespuesta(pre + JsonFence + body + Fence + post) == Strip(body)
  {
    var content := pre + JsonFence + body + Fence + post;
    StripFenced(pre, JsonFence, body, Fence, post);
    var p, q := TrimLeft(pre), TrimRight(post);
    assert q == [] || q[0] == post[0];
    var s := p + JsonFence + body + Fence + q;
    JsonPiece(p, body, q);
    JsonPieceHead(body, SplitSecond(s, JsonFence));
    JsonCleanedTo(content, body);
  }

  /** With a json fence, the cleaned reply is the stripped head of the piece
      after the first json fence. */
  lemma JsonCleanedTo(content: string, body: string)
    requires Contains(Strip(content), JsonFence)
    requires SplitHead(SplitSecond(Strip(content), JsonFence), Fence) == body
    ensures LimpiarRespuesta(content) == Strip(body)
  {
  }

  /** Without a json fence, the cleaned reply is the stripped head of the
      piece after the first bare fence. */
  lemma BareCleanedTo(content: string, body: string)
    requires !Contains(Strip(content), JsonFence) && Contains(Strip(content), Fence)
    requires SplitHead(SplitSecond(Strip(content), Fence), Fence) == body
    ensures LimpiarRespuesta(content) == Strip(body)
  {
  }

  /** In an already stripped reply `p + "```" + body + "```" + q`, the piece
      after the first fence is `body`. */
  lemma BarePiece(p: string, body: string, q: string)
    requires '`' !in p && '`' !in body
    ensures var s := p + Fence + body + Fence + q;
            Contains(s, Fence) && SplitSecond(s, Fence) == body
  {
    var s := p + Fence + body + Fence + q;
    var i := |p|;
    var k := i + 3 + |body|;
    assert s[..i] == p && s[i..i + 3] == Fence && s[i + 3..k] == body && s[k..k + 3] == Fence;
    FindAfterClean(s, Fence, 0, i);
    FindAfterClean(s, Fence, i + 3, k);
  }

  /** Round trip for a bare fence: when the reply holds no json fence, the
      text between the two fences reaches the decoder stripped. */
  lemma BareFenceRoundTrip(pre: string, body: string, post: string)
    requires '`' !in pre && '`' !in body
    requires !Contains(pre + Fence + body + Fence + post, JsonFence)
    ensures LimpiarRespuesta(pre + Fence + body + Fence + post) == Strip(body)
  {
    var content := pre + Fence + body + Fence + post;
    StripFenced(pre, Fence, body, Fence, post);
    StripKeepsAbsent(content, JsonFence);
    var p, q := TrimLeft(pre), TrimRight(post);
    assert forall c :: c in p ==> c in pre;
    var s := p + Fence + body + Fence + q;
    BarePiece(p, body, q);
    NoOccurrenceWithout(body, Fence);
    BareCleanedTo(content, body);
  }

  /** The try block up to the category check: the lower-cased label, or the
      exception that ends it. */
  function ExtraerCategoria(reply: ModelReply, decode: string -> Parsed): (r: Result<string, Falla>)
    ensures r.Success? <==>
              reply.Replied? && decode(LimpiarRespuesta(reply.content)).Label?
              && Lower(decode(LimpiarRespuesta(reply.content)).value) in Categorias
    ensures r.Success? ==> r.value in Categorias
                           && r.value == Lower(decode(LimpiarRespuesta(reply.content)).value)
    ensures r == Failure(JsonInvalido) <==>
              reply.Replied? && decode(LimpiarRespuesta(reply.content)) == DecodeError
  {
    match reply
    case CallFailed(message) => Failure(OtraFalla(message))
    case Replied(content) =>
      match decode(LimpiarRespuesta(content))
      case DecodeError => Failure(JsonInvalido)
      case MissingLabel => Failure(OtraFalla("El JSON no contiene 'clasificacion'"))
      case LabelUnreadable(message) => Failure(OtraFalla(message))
      case Label(value) =>
        var categoria := Lower(value);
        if categoria in Categorias then Success(categoria)
        else Failure(OtraFalla("Categoría inválida: " + categoria))
  }

  /** Confidence of a successful call classification. */
  function ConfianzaLlamada(categoria: string, tipo: string, resultado: string): (c: real)
    ensures c == 0.95 <==> categoria == Lower(tipo)
    ensures c == 0.90 <==>
              categoria != Lower(tipo)
              && ((Lower(resultado) == "escalada" && categoria == "reclamo")
                  || (Lower(resultado) == "resuelta" && categoria == "soporte"))
    ensures c in {0.95, 0.90, 0.85}
  {
    if categoria == Lower(tipo) then 0.95
    else if Lower(resultado) == "escalada" then (if categoria == "reclamo" then 0.90 else 0.85)
    else if Lower(resultado) == "resuelta" then (if categoria == "soporte" then 0.90 else 0.85)
    else 0.85
  }

  const RecomendacionesLlamada: map<string, map<string, string>> := map[
    "venta" := map[
      "atendida" := "Seguir el proceso de venta y cerrar la oferta.",
      "resuelta" := "Venta completada exitosamente. Registrar seguimiento.",
      "colgada" := "Llamada interrumpida. Programar callback para continuar venta.",
      "escalada" := "Escalar a supervisor de ventas para apoyo en cierre."],
    "soporte" := map[
      "atendida" := "Proporcionar asistencia técnica detallada al cliente.",
      "resuelta" := "Problema resuelto. Documentar solución para futuras referencias.",
      "colgada" := "Llamada interrumpida. Verificar si el problema se resolvió.",
      "escalada" := "Escalar a técnico especializado para resolución avanzada."],
    "reclamo" := map[
      "atendida" := "Escuchar activamente y registrar todos los detalles del reclamo.",
      "resuelta" := "Reclamo resuelto. Confirmar satisfacción del cliente.",
      "colgada" := "Llamada interrumpida. Seguimiento urgente requerido.",
      "escalada" := "Escalar inmediatamente a supervisor para manejo del reclamo."]]

  /** `generar_recomendacion`: the (category, lower-cased outcome) table,
      with the standard-protocol text for every pair outside it. */
  function RecomendacionLlamada(categoria: string, resultado: string): (r: string)
    ensures r != ProtocoloEstandar <==>
              categoria in Categorias && Lower(resultado) in ResultadosConRecomendacion
  {
    var porResultado := if categoria in RecomendacionesLlamada then RecomendacionesLlamada[categoria] else map[];
    if Lower(resultado) in porResultado then porResultado[Lower(resultado)] else ProtocoloEstandar
  }

  /** The category a failed call classification falls back to. */
  function CategoriaRespaldo(tipo: string): (c: string)
    ensures c in Categorias
    ensures Lower(tipo) in Categorias ==> c == Lower(tipo)
    ensures Lower(tipo) !in Categorias ==> c == "soporte"
  {
    if Lower(tipo) in Categorias then Lower(tipo) else "soporte"
  }

  /** `clasificar_llamada_con_ia` once the model has answered (or failed). */
  function ClasificarLlamada(tipo: string, resultado: string, reply: ModelReply,
                             decode: string -> Parsed): (r: Clasificacion)
    ensures r.categoria in Categorias && 0.0 <= r.confianza <= 1.0
    ensures match ExtraerCategoria(reply, decode)
            case Success(c) =>
              r == Clasificacion(c, ConfianzaLlamada(c, tipo, resultado), RecomendacionLlamada(c, resultado))
            case Failure(JsonInvalido) =>
              r.categoria == CategoriaRespaldo(tipo) && r.confianza == 0.70
              && r.recomendacion == "Clasificación automática falló. Usando tipo de llamada: " + CategoriaRespaldo(tipo)
            case Failure(OtraFalla(message)) =>
              r.categoria == CategoriaRespaldo(tipo) && r.confianza == 0.60
              && r.recomendacion == "Error en clasificación IA: " + message
  {
    match ExtraerCategoria(reply, decode)
    case Success(categoria) =>
      Clasificacion(categoria, ConfianzaLlamada(categoria, tipo, resultado),
                    RecomendacionLlamada(categoria, resultado))
    case Failure(JsonInvalido) =>
      var respaldo := CategoriaRespaldo(tipo);
      Clasificacion(respaldo, 0.70, "Clasificación automática falló. Usando tipo de llamada: " + respaldo)
    case Failure(OtraFalla(message)) =>
      Clasificacion(CategoriaRespaldo(tipo), 0.60, "Error en clasificación IA: " + message)
  }

  /** The keyword list of each category, for the text classifier. */
  function PalabrasClave(categoria: string): seq<string> {
    if categoria == "venta" then
      ["oferta", "descuento", "plan", "premium", "venta", "promoción", "pago", "comprar"]
    else if categoria == "soporte" then
      ["reiniciar", "módem", "error", "problema", "técnico", "verificar", "cobertura", "solicitar"]
    else if categoria == "reclamo" then
      ["escalar", "supervisor", "pqr", "queja", "reclamo", "tono alterado", "radicado"]
    else []
  }

  /** `any(palabra in texto for palabra in palabras)`. */
  function AlgunaPalabra(texto: string, palabras: seq<string>): (b: bool)
    ensures b <==> exists k :: 0 <= k < |palabras| && Contains(texto, palabras[k])
  {
    if palabras == [] then false
    else Contains(texto, palabras[0]) || AlgunaPalabra(texto, palabras[1..])
  }

  /** Confidence of a successful text classification. */
  function ConfianzaTexto(categoria: string, descripcion: string): (c: real)
    ensures c == 0.90 <==>
              exists k :: 0 <= k < |PalabrasClave(categoria)|
                          && Contains(Lower(descripcion), PalabrasClave(categoria)[k])
    ensures c == 0.90 || c == 0.80
  {
    if AlgunaPalabra(Lower(descripcion), PalabrasClave(categoria)) then 0.90 else 0.80
  }

  /** `generar_recomendacion_generica`: one text per category. */
  const RecomendacionesGenericas: map<string, string> := map[
    "venta" := "Enfocarse en presentar las ventajas del producto/servicio y cerrar la venta de manera efectiva.",
    "soporte" := "Proporcionar asistencia técnica detallada y asegurar que el problema se resuelva completamente.",
    "reclamo" := "Escuchar activamente, mostrar empatía y trabajar hacia una solución que satisfaga al cliente."]

  function RecomendacionGenerica(categoria: string): (r: string)
    ensures r != ProtocoloEstandar <==> categoria in Categorias
  {
    if categoria in RecomendacionesGenericas then RecomendacionesGenericas[categoria] else ProtocoloEstandar
  }

  /** `clasificar_texto_llamada` once the model has answered (or failed). */
  function ClasificarTexto(descripcion: string, reply: ModelReply, decode: string -> Parsed): (r: Clasificacion)
    ensures r.categoria in Categorias && 0.0 <= r.confianza <= 1.0
    ensures match ExtraerCategoria(reply, decode)
            case Success(c) =>
              r == Clasificacion(c, ConfianzaTexto(c, descripcion), RecomendacionGenerica(c))
            case Failure(JsonInvalido) =>
              r.categoria == "soporte" && r.confianza == 0.70
              && r.recomendacion == "Error al parsear respuesta de IA. Clasificación por defecto: soporte"
            case Failure(OtraFalla(message)) =>
              r.categoria == "soporte" && r.confianza == 0.60
              && r.recomendacion == "Error en clasificación IA: " + message
  {
    match ExtraerCategoria(reply, decode)
    case Success(categoria) =>
      Clasificacion(categoria, ConfianzaTexto(categoria, descripcion), RecomendacionGenerica(categoria))
    case Failure(JsonInvalido) =>
      Clasificacion("soporte", 0.70, "Error al parsear respuesta de IA. Clasificación por defecto: soporte")
    case Failure(OtraFalla(message)) =>
      Clasificacion("soporte", 0.60, "Error en clasificación IA: " + message)
  }
}

=== FILE: consultas.dfy ===
/** The read side of the crud package: lookups by key, the listings with
    their optional filters, and the uniqueness the tables' constraints keep.
    A filter argument is applied only when it is truthy, as the `if x:`
    tests of the source do: a missing or empty text and a missing or zero
    id leave it out; `confianza_minima` is tested with `is not None`
    instead, so a minimum of 0.0 still filters. */
module Consultas {
  import opened Wrappers
  import opened Query
  import opened ModeloUsuario
  import opened ModeloLlamada
  import opened ModeloClasificacion
  import opened ModeloMetrica
  import opened ModeloReporte

  /** A text argument that `if x:` takes. */
  predicate TextoDado(o: Option<string>) {
    o.Some? && o.value != ""
  }

  /** An integer argument that `if x:` takes. */
  predicate EnteroDado(o: Option<int>) {
    o.Some? && o.value != 0
  }

  /** `filter(Tabla.id == id).first()`: the row with that primary key. */
  function ObtenerPorId<T>(m: map<int, T>, id: int): (r: Option<Row<T>>)
    ensures r.Some? <==> id in m
    ensures r.Some? ==> r.value.id == id && r.value.rec == m[id]
  {
    if id in m then Some(Row(id, m[id])) else None
  }

  // ---------------------------------------------------------------- usuarios

  /** The unique constraint on `usuarios.email`. */
  ghost predicate EmailUnico(m: map<int, Usuario>) {
    forall i, j :: i in m && j in m && m[i].email == m[j].email ==> i == j
  }

  function ConEmail(email: string): Usuario -> bool {
    (u: Usuario) => u.email == email
  }

  /** `obtener_usuario_por_email`. */
  function ObtenerUsuarioPorEmail(m: map<int, Usuario>, email: string): (r: Option<Row<Usuario>>)
    ensures r.Some? <==> exists id :: id in m && m[id].email == email
    ensures r.Some? ==> r.value.id in m && r.value.rec == m[r.value.id] && r.value.rec.email == email
  {
    First(m, ConEmail(email))
  }

  /** While e-mails are unique, the lookup by e-mail finds the one user who
      holds it. */
  lemma PorEmailEsElUnico(m: map<int, Usuario>, id: int)
    requires EmailUnico(m) && id in m
    ensures ObtenerUsuarioPorEmail(m, m[id].email) == Some(Row(id, m[id]))
  {
    FirstOfUnique(m, ConEmail(m[id].email), id);
  }

  /** Writing a row whose e-mail no other row holds keeps e-mails unique:
      on insert no row may hold it, on update no row but the one rewritten. */
  lemma EmailUnicoAlEscribir(m: map<int, Usuario>, id: int, u: Usuario)
    requires EmailUnico(m)
    requires ObtenerUsuarioPorEmail(m, u.email).None? || ObtenerUsuarioPorEmail(m - {id}, u.email).None?
    ensures EmailUnico(m[id := u])
  {
    forall k | k in m && k != id ensures m[k].email != u.email {
      assert k in m - {id} && (m - {id})[k] == m[k];
    }
    var n := m[id := u];
    forall i, j | i in n && j in n && n[i].email == n[j].email ensures i == j {
      if i != id && j != id {
        assert n[i] == m[i] && n[j] == m[j];
      }
    }
  }

  function FiltroUsuarios(rol: Option<string>): Usuario -> bool {
    (u: Usuario) => !TextoDado(rol) || u.rol == rol.value
  }

  /** `obtener_usuarios`: the users with the given role (all of them when
      no role is given), in no promised order, one page of them. */
  function ObtenerUsuarios(m: map<int, Usuario>, skip: nat, limit: nat, rol: Option<string>): (r: seq<Row<Usuario>>)
    ensures |r| <= limit
    ensures forall x :: x in r ==> x.id in m && x.rec == m[x.id] && (TextoDado(rol) ==> x.rec.rol == rol.value)
    ensures exists S :: IsListing(S, m, FiltroUsuarios(rol)) && r == Page(S, skip, limit)
    ensures skip == 0 && limit >= |Matching(m, FiltroUsuarios(rol))| ==>
              forall id :: id in m && (TextoDado(rol) ==> m[id].rol == rol.value) ==> Row(id, m[id]) in r
  {
    ListUnordered(m, FiltroUsuarios(rol), skip, limit)
  }

  // ---------------------------------------------------------------- llamadas

  predicate CumpleFiltroLlamadas(l: Llamada, usuarioId: Option<int>, tipo: Option<string>, resultado: Option<string>) {
    (!EnteroDado(usuarioId) || l.usuarioId == usuarioId.value)
    && (!TextoDado(tipo) || l.tipo == tipo.value)
    && (!TextoDado(resultado) || l.resultado == resultado.value)
  }

  function FiltroLlamadas(usuarioId: Option<int>, tipo: Option<string>, resultado: Option<string>): Llamada -> bool {
    (l: Llamada) => CumpleFiltroLlamadas(l, usuarioId, tipo, resultado)
  }

  function PorFechaHora(l: Llamada): Key {
    Text(l.fechaHora)
  }

  /** `obtener_llamadas`: the calls that pass the given filters, latest
      `fecha_hora` first, one page of them. */
  function ObtenerLlamadas(m: map<int, Llamada>, skip: nat, limit: nat,
                           usuarioId: Option<int>, tipo: Option<string>, resultado: Option<string>): (r: seq<Row<Llamada>>)
    ensures |r| <= limit
    ensures forall x :: x in r ==> x.id in m && x.rec == m[x.id] && CumpleFiltroLlamadas(x.rec, usuarioId, tipo, resultado)
    ensures SortedDesc(r, PorFechaHora)
    ensures exists S :: IsSortedListing(S, m, FiltroLlamadas(usuarioId, tipo, resultado), PorFechaHora)
                        && r == Page(S, skip, limit)
    ensures skip == 0 && limit >= |Matching(m, FiltroLlamadas(usuarioId, tipo, resultado))| ==>
              forall id :: id in m && CumpleFiltroLlamadas(m[id], usuarioId, tipo, resultado) ==> Row(id, m[id]) in r
  {
    ListSorted(m, FiltroLlamadas(usuarioId, tipo, resultado), PorFechaHora, skip, limit)
  }

  /** `obtener_llamadas_por_usuario` as written: the general listing with
      only `usuario_id` set. The id goes through the truthiness test, so for
      id 0 no filter applies and every call is listed. */
  function ObtenerLlamadasPorUsuario(m: map<int, Llamada>, usuarioId: int, skip: nat, limit: nat): (r: seq<Row<Llamada>>)
    ensures forall x :: x in r ==> x.id in m && x.rec == m[x.id]
    ensures usuarioId != 0 ==> forall x :: x in r ==> x.rec.usuarioId == usuarioId
  {
    ObtenerLlamadas(m, skip, limit, Some(usuarioId), None, None)
  }

  /** With id 0 the by-user listing is the unfiltered listing. */
  lemma LlamadasPorUsuarioCero(m: map<int, Llamada>, skip: nat, limit: nat)
    ensures ObtenerLlamadasPorUsuario(m, 0, skip, limit) == ObtenerLlamadas(m, skip, limit, None, None, None)
  {
    ListSortedAgrees(m, FiltroLlamadas(Some(0), None, None), FiltroLlamadas(None, None, None), PorFechaHora, skip, limit);
  }

  function DeUsuario(usuarioId: int): Llamada -> bool {
    (l: Llamada) => l.usuarioId == usuarioId
  }

  /** The calls of one user, latest first, one page of them, with the user
      filter applied for every id. */
  function ObtenerLlamadasDeUsuario(m: map<int, Llamada>, usuarioId: int, skip: nat, limit: nat): (r: seq<Row<Llamada>>)
    ensures forall x :: x in r ==> x.id in m && x.rec == m[x.id] && x.rec.usuarioId == usuarioId
    ensures SortedDesc(r, PorFechaHora)
    ensures exists S :: IsSortedListing(S, m, DeUsuario(usuarioId), PorFechaHora) && r == Page(S, skip, limit)
  {
    ListSorted(m, DeUsuario(usuarioId), PorFechaHora, skip, limit)
  }

  /** For every id but 0 the source's by-user listing is the corrected one. */
  lemma LlamadasPorUsuarioCoinciden(m: map<int, Llamada>, usuarioId: int, skip: nat, limit: nat)
    requires usuarioId != 0
    ensures ObtenerLlamadasPorUsuario(m, usuarioId, skip, limit) == ObtenerLlamadasDeUsuario(m, usuarioId, skip, limit)
  {
    ListSortedAgrees(m, FiltroLlamadas(Some(usuarioId), None, None), DeUsuario(usuarioId), PorFechaHora, skip, limit);
  }

  /** A user who took no call has an empty listing. */
  lemma SinLlamadasDeUsuario(m: map<int, Llamada>, usuarioId: int, skip: nat, limit: nat)
    requires forall id :: id in m ==> m[id].usuarioId != usuarioId
    ensures ObtenerLlamadasDeUsuario(m, usuarioId, skip, limit) == []
  {
    var r := ObtenerLlamadasDeUsuario(m, usuarioId, skip, limit);
    assert forall x :: x !in r;
  }

  /** A table of one call, taken by some user: asked for the calls of user
      0, who does not exist, the source lists that call; the corrected
      listing is empty. */
  lemma LlamadasDelUsuarioCero(c: Llamada)
    requires c.usuarioId != 0
    ensures ObtenerLlamadasPorUsuario(map[1 := c], 0, 0, 100) == [Row(1, c)]
    ensures ObtenerLlamadasDeUsuario(map[1 := c], 0, 0, 100) == []
  {
    var m := map[1 := c];
    var P := FiltroLlamadas(None, None, None);
    MatchingOfOne(m, P, 1);
    LlamadasPorUsuarioCero(m, 0, 100);
    ListSortedSingle(m, P, PorFechaHora, Row(1, c), 100);
    SinLlamadasDeUsuario(m, 0, 0, 100);
  }

  // ---------------------------------------------------------- clasificaciones

  /** The unique constraint on `clasificacion_ia.llamada_id`: at most one
      classification per call. */
  ghost predicate LlamadaUnica(m: map<int, ClasificacionIA>) {
    forall i, j :: i in m && j in m && m[i].llamadaId == m[j].llamadaId ==> i == j
  }

  function DeLlamada(llamadaId: int): ClasificacionIA -> bool {
    (c: ClasificacionIA) => c.llamadaId == llamadaId
  }

  /** `obtener_clasificacion_ia_por_llamada`. */
  function ObtenerClasificacionPorLlamada(m: map<int, ClasificacionIA>, llamadaId: int): (r: Option<Row<ClasificacionIA>>)
    ensures r.Some? <==> exists id :: id in m && m[id].llamadaId == llamadaId
    ensures r.Some? ==> r.value.id in m && r.value.rec == m[r.value.id] && r.value.rec.llamadaId == llamadaId
  {
    First(m, DeLlamada(llamadaId))
  }

  /** While each call has at most one classification, the lookup by call
      finds that one. */
  lemma PorLlamadaEsLaUnica(m: map<int, ClasificacionIA>, id: int)
    requires LlamadaUnica(m) && id in m
    ensures ObtenerClasificacionPorLlamada(m, m[id].llamadaId) == Some(Row(id, m[id]))
  {
    FirstOfUnique(m, DeLlamada(m[id].llamadaId), id);
  }

  /** Writing a classification whose call no other classification has keeps
      one classification per call. */
  lemma LlamadaUnicaAlEscribir(m: map<int, ClasificacionIA>, id: int, c: ClasificacionIA)
    requires LlamadaUnica(m)
    requires ObtenerClasificacionPorLlamada(m, c.llamadaId).None? || ObtenerClasificacionPorLlamada(m - {id}, c.llamadaId).None?
    ensures LlamadaUnica(m[id := c])
  {
    forall k | k in m && k != id ensures m[k].llamadaId != c.llamadaId {
      assert k in m - {id} && (m - {id})[k] == m[k];
    }
    var n := m[id := c];
    forall i, j | i in n && j in n && n[i].llamadaId == n[j].llamadaId ensures i == j {
      if i != id && j != id {
        assert n[i] == m[i] && n[j] == m[j];
      }
    }
  }

  predicate CumpleFiltroClasificaciones(c: ClasificacionIA, categoria: Option<string>, minima: Option<real>) {
    (!TextoDado(categoria) || c.categoria == categoria.value)
    && (minima.None? || c.confianza >= minima.value)
  }

  function FiltroClasificaciones(categoria: Option<string>, minima: Option<real>): ClasificacionIA -> bool {
    (c: ClasificacionIA) => CumpleFiltroClasificaciones(c, categoria, minima)
  }

  function PorConfianza(c: ClasificacionIA): Key {
    Number(c.confianza)
  }

  /** `obtener_clasificaciones_ia`: the classifications of the given
      category and at least the given confidence, most confident first, one
      page of them. */
  function ObtenerClasificaciones(m: map<int, ClasificacionIA>, skip: nat, limit: nat,
                                  categoria: Option<string>, minima: Option<real>): (r: seq<Row<ClasificacionIA>>)
    ensures |r| <= limit
    ensures forall x :: x in r ==> x.id in m && x.rec == m[x.id] && CumpleFiltroClasificaciones(x.rec, categoria, minima)
    ensures SortedDesc(r, PorConfianza)
    ensures exists S :: IsSortedListing(S, m, FiltroClasificaciones(categoria, minima), PorConfianza)
                        && r == Page(S, skip, limit)
    ensures skip == 0 && limit >= |Matching(m, FiltroClasificaciones(categoria, minima))| ==>
              forall id :: id in m && CumpleFiltroClasificaciones(m[id], categoria, minima) ==> Row(id, m[id]) in r
  {
    ListSorted(m, FiltroClasificaciones(categoria, minima), PorConfianza, skip, limit)
  }

  // ---------------------------------------------------------------- metricas

  /** The unique constraint on `metricas.fecha`. */
  ghost predicate FechaUnica(m: map<int, Metrica>) {
    forall i, j :: i in m && j in m && m[i].fecha == m[j].fecha ==> i == j
  }

  function ConFecha(fecha: string): Metrica -> bool {
    (x: Metrica) => x.fecha == fecha
  }

  /** `obtener_metrica_por_fecha`. */
  function ObtenerMetricaPorFecha(m: map<int, Metrica>, fecha: string): (r: Option<Row<Metrica>>)
    ensures r.Some? <==> exists id :: id in m && m[id].fecha == fecha
    ensures r.Some? ==> r.value.id in m && r.value.rec == m[r.value.id] && r.value.rec.fecha == fecha
  {
    First(m, ConFecha(fecha))
  }

  /** While dates are unique, the lookup by date finds the one metric of
      that date. */
  lemma PorFechaEsLaUnica(m: map<int, Metrica>, id: int)
    requires FechaUnica(m) && id in m
    ensures ObtenerMetricaPorFecha(m, m[id].fecha) == Some(Row(id, m[id]))
  {
    FirstOfUnique(m, ConFecha(m[id].fecha), id);
  }

  /** Writing a metric whose date no other metric has keeps dates unique. */
  lemma FechaUnicaAlEscribir(m: map<int, Metrica>, id: int, x: Metrica)
    requires FechaUnica(m)
    requires ObtenerMetricaPorFecha(m, x.fecha).None? || ObtenerMetricaPorFecha(m - {id}, x.fecha).None?
    ensures FechaUnica(m[id := x])
  {
    forall k | k in m && k != id ensures m[k].fecha != x.fecha {
      assert k in m - {id} && (m - {id})[k] == m[k];
    }
    var n := m[id := x];
    forall i, j | i in n && j in n && n[i].fecha == n[j].fecha ensures i == j {
      if i != id && j != id {
        assert n[i] == m[i] && n[j] == m[j];
      }
    }
  }

  /** A metric may keep its own date, or take one no metric has: no other
      metric has that date then. */
  lemma FechaLibreParaMetrica(m: map<int, Metrica>, id: int, fecha: string)
    requires FechaUnica(m) && id in m
    requires fecha == m[id].fecha || ObtenerMetricaPorFecha(m, fecha).None?
    ensures ObtenerMetricaPorFecha(m - {id}, fecha).None?
  {
    forall j | j in m - {id} ensures m[j].fecha != fecha {
      assert j in m && j != id;
    }
  }

  /** `fecha_desde <= fecha <= fecha_hasta` on the text of the dates, each
      bound only when given. */
  predicate CumpleFiltroMetricas(x: Metrica, desde: Option<string>, hasta: Option<string>) {
    (!TextoDado(desde) || TextLe(desde.value, x.fecha))
    && (!TextoDado(hasta) || TextLe(x.fecha, hasta.value))
  }

  function FiltroMetricas(desde: Option<string>, hasta: Option<string>): Metrica -> bool {
    (x: Metrica) => CumpleFiltroMetricas(x, desde, hasta)
  }

  function PorFecha(x: Metrica): Key {
    Text(x.fecha)
  }

  /** `obtener_metricas`: the metrics dated within the bounds, latest date
      first, one page of them. */
  function ObtenerMetricas(m: map<int, Metrica>, skip: nat, limit: nat,
                           desde: Option<string>, hasta: Option<string>): (r: seq<Row<Metrica>>)
    ensures |r| <= limit
    ensures forall x :: x in r ==> x.id in m && x.rec == m[x.id] && CumpleFiltroMetricas(x.rec, desde, hasta)
    ensures SortedDesc(r, PorFecha)
    ensures exists S :: IsSortedListing(S, m, FiltroMetricas(desde, hasta), PorFecha) && r == Page(S, skip, limit)
    ensures skip == 0 && limit >= |Matching(m, FiltroMetricas(desde, hasta))| ==>
              forall id :: id in m && CumpleFiltroMetricas(m[id], desde, hasta) ==> Row(id, m[id]) in r
  {
    ListSorted(m, FiltroMetricas(desde, hasta), PorFecha, skip, limit)
  }

  // ---------------------------------------------------------------- reportes

  predicate CumpleFiltroReportes(x: Reporte, generadoPor: Option<int>, desde: Option<string>, hasta: Option<string>) {
    (!EnteroDado(generadoPor) || x.generadoPor == generadoPor.value)
    && (!TextoDado(desde) || TextLe(desde.value, x.fechaGenerado))
    && (!TextoDado(hasta) || TextLe(x.fechaGenerado, hasta.value))
  }

  function FiltroReportes(generadoPor: Option<int>, desde: Option<string>, hasta: Option<string>): Reporte -> bool {
    (x: Reporte) => CumpleFiltroReportes(x, generadoPor, desde, hasta)
  }

  function PorFechaGenerado(x: Reporte): Key {
    Text(x.fechaGenerado)
  }

  /** `obtener_reportes`: the reports of the given author within the date
      bounds, latest first, one page of them. */
  function ObtenerReportes(m: map<int, Reporte>, skip: nat, limit: nat,
                           generadoPor: Option<int>, desde: Option<string>, hasta: Option<string>): (r: seq<Row<Reporte>>)
    ensures |r| <= limit
    ensures forall x :: x in r ==> x.id in m && x.rec == m[x.id] && CumpleFiltroReportes(x.rec, generadoPor, desde, hasta)
    ensures SortedDesc(r, PorFechaGenerado)
    ensures exists S :: IsSortedListing(S, m, FiltroReportes(generadoPor, desde, hasta), PorFechaGenerado)
                        && r == Page(S, skip, limit)
    ensures skip == 0 && limit >= |Matching(m, FiltroReportes(generadoPor, desde, hasta))| ==>
              forall id :: id in m && CumpleFiltroReportes(m[id], generadoPor, desde, hasta) ==> Row(id, m[id]) in r
  {
    ListSorted(m, FiltroReportes(generadoPor, desde, hasta), PorFechaGenerado, skip, limit)
  }

  /** `obtener_reportes_por_usuario` as written: the general listing with
      only `generado_por` set, which id 0 does not pass. */
  function ObtenerReportesPorUsuario(m: map<int, Reporte>, usuarioId: int, skip: nat, limit: nat): (r: seq<Row<Reporte>>)
    ensures forall x :: x in r ==> x.id in m && x.rec == m[x.id]
    ensures usuarioId != 0 ==> forall x :: x in r ==> x.rec.generadoPor == usuarioId
  {
    ObtenerReportes(m, skip, limit, Some(usuarioId), None, None)
  }

  /** With id 0 the by-user listing is the unfiltered listing. */
  lemma ReportesPorUsuarioCero(m: map<int, Reporte>, skip: nat, limit: nat)
    ensures ObtenerReportesPorUsuario(m, 0, skip, limit) == ObtenerReportes(m, skip, limit, None, None, None)
  {
    ListSortedAgrees(m, FiltroReportes(Some(0), None, None), FiltroReportes(None, None, None), PorFechaGenerado, skip, limit);
  }

  function DeAutor(usuarioId: int): Reporte -> bool {
    (x: Reporte) => x.generadoPor == usuarioId
  }

  /** The reports of one user, latest first, one page of them, with the
      user filter applied for every id. */
  function ObtenerReportesDeUsuario(m: map<int, Reporte>, usuarioId: int, skip: nat, limit: nat): (r: seq<Row<Reporte>>)
    ensures forall x :: x in r ==> x.id in m && x.rec == m[x.id] && x.rec.generadoPor == usuarioId
    ensures SortedDesc(r, PorFechaGenerado)
    ensures exists S :: IsSortedListing(S, m, DeAutor(usuarioId), PorFechaGenerado) && r == Page(S, skip, limit)
  {
    ListSorted(m, DeAutor(usuarioId), PorFechaGenerado, skip, limit)
  }

  /** For every id but 0 the source's by-user listing is the corrected one. */
  lemma ReportesPorUsuarioCoinciden(m: map<int, Reporte>, usuarioId: int, skip: nat, limit: nat)
    requires usuarioId != 0
    ensures ObtenerReportesPorUsuario(m, usuarioId, skip, limit) == ObtenerReportesDeUsuario(m, usuarioId, skip, limit)
  {
    ListSortedAgrees(m, FiltroReportes(Some(usuarioId), None, None), DeAutor(usuarioId), PorFechaGenerado, skip, limit);
  }

  /** A user who wrote no report has an empty listing. */
  lemma SinReportesDeUsuario(m: map<int, Reporte>, usuarioId: int, skip: nat, limit: nat)
    requires forall id :: id in m ==> m[id].generadoPor != usuarioId
    ensures ObtenerReportesDeUsuario(m, usuarioId, skip, limit) == []
  {
    var r := ObtenerReportesDeUsuario(m, usuarioId, skip, limit);
    assert forall x :: x !in r;
  }

  /** A table of one report, written by some user: asked for the reports
      of user 0, who does not exist, the source lists that report; the
      corrected listing is empty. */
  lemma ReportesDelUsuarioCero(x: Reporte)
    requires x.generadoPor != 0
    ensures ObtenerReportesPorUsuario(map[1 := x], 0, 0, 100) == [Row(1, x)]
    ensures ObtenerReportesDeUsuario(map[1 := x], 0, 0, 100) == []
  {
    var m := map[1 := x];
    var P := FiltroReportes(None, None, None);
    MatchingOfOne(m, P, 1);
    ReportesPorUsuarioCero(m, 0, 100);
    ListSortedSingle(m, P, PorFechaGenerado, Row(1, x), 100);
    SinReportesDeUsuario(m, 0, 0, 100);
  }
}

=== FILE: esquema_clasificacion.dfy ===
/** The pydantic schemas of esquemas/clasificacion_ia.py: the create and
    update shapes of a classification, the text request and the text
    response. Each `Validar...` returns the validated instance (fields
    normalised by the validators) or the list of errors. */
module EsquemaClasificacion {
  import opened Wrappers
  import opened Text
  import opened Validacion
  import opened ModeloClasificacion
  import Partial
  import Clasificador

  /** `validar_categoria`, written three times in the schema file. */
  function ValidarCategoria(v: string): (r: Option<string>)
    ensures r.Some? <==> Lower(v) in Clasificador.Categorias
    ensures r.Some? ==> r.value == Lower(v) && r.value in Clasificador.Categorias
  {
    EnLista(v, Clasificador.Categorias)
  }

  /** The `ge=0.0, le=1.0` bound of every `confianza` field. */
  predicate ConfianzaValida(c: real) {
    0.0 <= c <= 1.0
  }

  datatype ClasificacionIACreate =
    ClasificacionIACreate(categoria: string, confianza: real, recomendacionAgente: Option<string>, llamadaId: int)

  function ValidarCreate(e: ClasificacionIACreate): (r: Result<ClasificacionIACreate, set<Error>>)
    ensures r.Success? <==>
              Lower(e.categoria) in Clasificador.Categorias && ConfianzaValida(e.confianza) && e.llamadaId > 0
    ensures r.Success? ==> r.value == e.(categoria := Lower(e.categoria))
    ensures r.Failure? ==>
              (ErrorDeCampo("categoria") in r.error <==> Lower(e.categoria) !in Clasificador.Categorias)
              && (ErrorDeCampo("confianza") in r.error <==> !ConfianzaValida(e.confianza))
              && (ErrorDeCampo("llamada_id") in r.error <==> e.llamadaId <= 0)
  {
    var categoria := ValidarCategoria(e.categoria);
    var errores := Si(categoria.None?, ErrorDeCampo("categoria"))
                   + Si(!ConfianzaValida(e.confianza), ErrorDeCampo("confianza"))
                   + Si(e.llamadaId <= 0, ErrorDeCampo("llamada_id"));
    if errores == {} then Success(e.(categoria := categoria.value)) else Failure(errores)
  }

  /** A validated classification passes validation again, unchanged. */
  lemma ValidarCreateIdempotente(e: ClasificacionIACreate)
    requires ValidarCreate(e).Success?
    ensures ValidarCreate(ValidarCreate(e).value) == ValidarCreate(e)
  {
    EnListaIdempotente(e.categoria, Clasificador.Categorias);
  }

  /** `ClasificacionIAUpdate`: `None` is a field the request left unset.
      `recomendacionAgente` is nullable, so `Some(None)` sets it to NULL. */
  datatype ClasificacionIAUpdate =
    ClasificacionIAUpdate(llamadaId: Option<int>, categoria: Option<string>, confianza: Option<real>,
                          recomendacionAgente: Option<Option<string>>)

  function ValidarUpdate(e: ClasificacionIAUpdate): (r: Result<ClasificacionIAUpdate, set<Error>>)
    ensures r.Success? <==>
              (e.llamadaId.Some? ==> e.llamadaId.value > 0)
              && (e.categoria.Some? ==> Lower(e.categoria.value) in Clasificador.Categorias)
              && (e.confianza.Some? ==> ConfianzaValida(e.confianza.value))
    ensures r.Success? ==>
              r.value.llamadaId == e.llamadaId && r.value.confianza == e.confianza
              && r.value.recomendacionAgente == e.recomendacionAgente
              && (e.categoria.None? ==> r.value.categoria.None?)
              && (e.categoria.Some? ==> r.value.categoria == Some(Lower(e.categoria.value)))
    ensures r.Failure? ==>
              (ErrorDeCampo("llamada_id") in r.error <==> e.llamadaId.Some? && e.llamadaId.value <= 0)
              && (ErrorDeCampo("categoria") in r.error
                  <==> e.categoria.Some? && Lower(e.categoria.value) !in Clasificador.Categorias)
              && (ErrorDeCampo("confianza") in r.error
                  <==> e.confianza.Some? && !ConfianzaValida(e.confianza.value))
  {
    var categoria := EnListaOpcional(e.categoria, Clasificador.Categorias);
    var errores := Si(e.llamadaId.Some? && e.llamadaId.value <= 0, ErrorDeCampo("llamada_id"))
                   + Si(categoria.None?, ErrorDeCampo("categoria"))
                   + Si(e.confianza.Some? && !ConfianzaValida(e.confianza.value), ErrorDeCampo("confianza"));
    if errores == {} then Success(e.(categoria := categoria.value)) else Failure(errores)
  }

  /** `model_dump(exclude_unset=True)`: the supplied fields, in declaration
      order, as the assignments the update loop makes. */
  function Volcar(p: ClasificacionIAUpdate): seq<Campo> {
    (if p.llamadaId.Some? then [LlamadaId(p.llamadaId.value)] else [])
    + (if p.categoria.Some? then [Categoria(p.categoria.value)] else [])
    + (if p.confianza.Some? then [Confianza(p.confianza.value)] else [])
    + (if p.recomendacionAgente.Some? then [RecomendacionAgente(p.recomendacionAgente.value)] else [])
  }

  /** The row with every supplied field replaced and every other field kept. */
  function Parchear(c: ClasificacionIA, p: ClasificacionIAUpdate): ClasificacionIA {
    ClasificacionIA(p.llamadaId.GetOr(c.llamadaId), p.categoria.GetOr(c.categoria),
                    p.confianza.GetOr(c.confianza), p.recomendacionAgente.GetOr(c.recomendacionAgente))
  }

  /** The `setattr` loop over the dumped fields changes exactly the supplied
      fields. */
  lemma VolcarParchea(c: ClasificacionIA, p: ClasificacionIAUpdate)
    ensures Partial.ApplyAll(c, Volcar(p), Asignar) == Parchear(c, p)
  {
    var a := if p.llamadaId.Some? then [LlamadaId(p.llamadaId.value)] else [];
    var b := if p.categoria.Some? then [Categoria(p.categoria.value)] else [];
    var d := if p.confianza.Some? then [Confianza(p.confianza.value)] else [];
    var e := if p.recomendacionAgente.Some? then [RecomendacionAgente(p.recomendacionAgente.value)] else [];
    Partial.ApplyAllAppend(c, a + b + d, e, Asignar);
    Partial.ApplyAllAppend(c, a + b, d, Asignar);
    Partial.ApplyAllAppend(c, a, b, Asignar);
  }

  /** `ClasificacionTextoRequest`: `descripcion` has `min_length=1`. */
  function ValidarTextoRequest(descripcion: string): (r: Result<string, set<Error>>)
    ensures r.Success? <==> |descripcion| >= 1
    ensures r.Success? ==> r.value == descripcion
    ensures r.Failure? ==> r.error == {ErrorDeCampo("descripcion")}
  {
    if |descripcion| >= 1 then Success(descripcion) else Failure({ErrorDeCampo("descripcion")})
  }

  datatype ClasificacionTextoResponse =
    ClasificacionTextoResponse(categoria: string, confianza: real, recomendacionAgente: Option<string>)

  function ValidarTextoResponse(e: ClasificacionTextoResponse): (r: Result<ClasificacionTextoResponse, set<Error>>)
    ensures r.Success? <==> Lower(e.categoria) in Clasificador.Categorias && ConfianzaValida(e.confianza)
    ensures r.Success? ==> r.value == e.(categoria := Lower(e.categoria))
    ensures r.Failure? ==>
              (ErrorDeCampo("categoria") in r.error <==> Lower(e.categoria) !in Clasificador.Categorias)
              && (ErrorDeCampo("confianza") in r.error <==> !ConfianzaValida(e.confianza))
  {
    var categoria := ValidarCategoria(e.categoria);
    var errores := Si(categoria.None?, ErrorDeCampo("categoria"))
                   + Si(!ConfianzaValida(e.confianza), ErrorDeCampo("confianza"));
    if errores == {} then Success(e.(categoria := categoria.value)) else Failure(errores)
  }

  /** The three labels are written in lower case. */
  lemma CategoriasEnMinusculas(c: string)
    requires c in Clasificador.Categorias
    ensures NoUpper(c)
  {
    assert c == "venta" || c == "soporte" || c == "reclamo";
  }

  /** What the call classifier returns, stored for an existing call, passes
      the create schema as it is: the category is one of the three in lower
      case and the confidence lies in [0, 1], on success and on fallback. */
  lemma ClasificacionDeLlamadaEsValida(llamadaId: int, tipo: string, resultado: string,
                                       reply: Clasificador.ModelReply, decode: string -> Clasificador.Parsed)
    requires llamadaId > 0
    ensures var c := Clasificador.ClasificarLlamada(tipo, resultado, reply, decode);
            var e := ClasificacionIACreate(c.categoria, c.confianza, Some(c.recomendacion), llamadaId);
            ValidarCreate(e) == Success(e)
  {
    var c := Clasificador.ClasificarLlamada(tipo, resultado, reply, decode);
    CategoriasEnMinusculas(c.categoria);
    LowerFixesLowercase(c.categoria);
  }

  /** What the text classifier returns passes the text response schema as
      it is. */
  lemma ClasificacionDeTextoEsValida(descripcion: string, reply: Clasificador.ModelReply,
                                     decode: string -> Clasificador.Parsed)
    ensures var c := Clasificador.ClasificarTexto(descripcion, reply, decode);
            var e := ClasificacionTextoResponse(c.categoria, c.confianza, Some(c.recomendacion));
            ValidarTextoResponse(e) == Success(e)
  {
    var c := Clasificador.ClasificarTexto(descripcion, reply, decode);
    CategoriasEnMinusculas(c.categoria);
    LowerFixesLowercase(c.categoria);
  }
}

=== FILE: esquema_llamada.dfy ===
/** The pydantic schemas of esquemas/llamada.py. The create shape accepts six
    call types and six outcomes, the update shape only three and four. On
    create, a missing `fecha_hora` is filled in with the current time by a
    model validator; `ahora` is what `datetime.now().isoformat()` returned. */
module EsquemaLlamada {
  import opened Wrappers
  import opened Text
  import opened Validacion
  import opened ModeloLlamada
  import Partial

  const Tipos: set<string> := {"venta", "soporte", "reclamo", "consulta", "técnico", "logistica"}
  const Resultados: set<string> := {"atendida", "colgada", "resuelta", "escalada", "pendiente", "fallida"}
  const TiposActualizables: set<string> := {"venta", "soporte", "reclamo"}
  const ResultadosActualizables: set<string> := {"atendida", "colgada", "resuelta", "escalada"}

  /** The update shape accepts a subset of what the create shape accepts. */
  lemma ActualizablesSonAdmitidos()
    ensures TiposActualizables < Tipos && ResultadosActualizables < Resultados
  {
    assert "consulta" in Tipos - TiposActualizables;
    assert "pendiente" in Resultados - ResultadosActualizables;
  }

  datatype LlamadaCreate =
    LlamadaCreate(numeroCliente: string, duracionSegundos: int, tipo: string, resultado: string,
                  usuarioId: int, fechaHora: Option<string>)

  /** The fields of a create that fail their constraint or validator. */
  function ErroresCampos(e: LlamadaCreate): (errores: set<Error>)
    ensures ErrorDeCampo("numero_cliente") in errores <==> |e.numeroCliente| < 1
    ensures ErrorDeCampo("duracion_segundos") in errores <==> e.duracionSegundos <= 0
    ensures ErrorDeCampo("tipo") in errores <==> Lower(e.tipo) !in Tipos
    ensures ErrorDeCampo("resultado") in errores <==> Lower(e.resultado) !in Resultados
    ensures ErrorDeCampo("usuario_id") in errores <==> e.usuarioId <= 0
    ensures forall x :: x in errores ==>
              x in {ErrorDeCampo("numero_cliente"), ErrorDeCampo("duracion_segundos"), ErrorDeCampo("tipo"),
                    ErrorDeCampo("resultado"), ErrorDeCampo("usuario_id")}
  {
    Si(|e.numeroCliente| < 1, ErrorDeCampo("numero_cliente"))
    + Si(e.duracionSegundos <= 0, ErrorDeCampo("duracion_segundos"))
    + Si(EnLista(e.tipo, Tipos).None?, ErrorDeCampo("tipo"))
    + Si(EnLista(e.resultado, Resultados).None?, ErrorDeCampo("resultado"))
    + Si(e.usuarioId <= 0, ErrorDeCampo("usuario_id"))
  }

  /** Field constraints and validators first; the model validator on
      `fecha_hora` runs only when they all pass, so its error is reported
      alone. */
  function ValidarCreate(e: LlamadaCreate, ahora: string, esIso: string -> bool): (r: Result<LlamadaCreate, set<Error>>)
    ensures r.Success? <==>
              |e.numeroCliente| >= 1 && e.duracionSegundos > 0 && Lower(e.tipo) in Tipos
              && Lower(e.resultado) in Resultados && e.usuarioId > 0
              && (e.fechaHora.Some? ==> FechaHoraIso(e.fechaHora.value, esIso))
    ensures r.Success? ==>
              r.value == e.(tipo := Lower(e.tipo), resultado := Lower(e.resultado),
                            fechaHora := Some(e.fechaHora.GetOr(ahora)))
    ensures r.Failure? ==>
              r.error == if ErroresCampos(e) != {} then ErroresCampos(e) else {ErrorDeModelo("fecha_hora")}
  {
    var errores := ErroresCampos(e);
    if errores != {} then Failure(errores)
    else
      var campos := e.(tipo := EnLista(e.tipo, Tipos).value, resultado := EnLista(e.resultado, Resultados).value);
      match e.fechaHora
      case None => Success(campos.(fechaHora := Some(ahora)))
      case Some(v) =>
        if FechaHoraIso(v, esIso) then Success(campos) else Failure({ErrorDeModelo("fecha_hora")})
  }

  /** After validation a call always has its date-time, kept verbatim when it
      was given. */
  lemma CreateTieneFechaHora(e: LlamadaCreate, ahora: string, esIso: string -> bool)
    requires ValidarCreate(e, ahora, esIso).Success?
    ensures var v := ValidarCreate(e, ahora, esIso).value;
            v.fechaHora.Some? && (e.fechaHora.Some? ==> v.fechaHora == e.fechaHora)
            && (e.fechaHora.None? ==> v.fechaHora == Some(ahora))
  {
  }

  /** A validated call passes validation again, unchanged. */
  lemma ValidarCreateIdempotente(e: LlamadaCreate, ahora: string, ahora2: string, esIso: string -> bool)
    requires ValidarCreate(e, ahora, esIso).Success?
    requires e.fechaHora.None? ==> FechaHoraIso(ahora, esIso)
    ensures ValidarCreate(ValidarCreate(e, ahora, esIso).value, ahora2, esIso) == ValidarCreate(e, ahora, esIso)
  {
    EnListaIdempotente(e.tipo, Tipos);
    EnListaIdempotente(e.resultado, Resultados);
  }

  /** `LlamadaUpdate`: `None` is a field the request left unset. */
  datatype LlamadaUpdate =
    LlamadaUpdate(usuarioId: Option<int>, numeroCliente: Option<string>, duracionSegundos: Option<int>,
                  tipo: Option<string>, resultado: Option<string>, fechaHora: Option<string>)

  /** The fields of an update that fail their constraint or validator:
      those about who took the call and for how long, ... */
  function ErroresAtencion(e: LlamadaUpdate): (errores: set<Error>)
    ensures ErrorDeCampo("usuario_id") in errores <==> e.usuarioId.Some? && e.usuarioId.value <= 0
    ensures ErrorDeCampo("numero_cliente") in errores <==> e.numeroCliente.Some? && |e.numeroCliente.value| < 1
    ensures ErrorDeCampo("duracion_segundos") in errores <==> e.duracionSegundos.Some? && e.duracionSegundos.value <= 0
    ensures forall x :: x in errores ==> x in {ErrorDeCampo("usuario_id"), ErrorDeCampo("numero_cliente"), ErrorDeCampo("duracion_segundos")}
  {
    Si(e.usuarioId.Some? && e.usuarioId.value <= 0, ErrorDeCampo("usuario_id"))
    + Si(e.numeroCliente.Some? && |e.numeroCliente.value| < 1, ErrorDeCampo("numero_cliente"))
    + Si(e.duracionSegundos.Some? && e.duracionSegundos.value <= 0, ErrorDeCampo("duracion_segundos"))
  }

  /** ... and those that describe it. */
  function ErroresDescripcion(e: LlamadaUpdate, esIso: string -> bool): (errores: set<Error>)
    ensures ErrorDeCampo("tipo") in errores <==> e.tipo.Some? && Lower(e.tipo.value) !in TiposActualizables
    ensures ErrorDeCampo("resultado") in errores
            <==> e.resultado.Some? && Lower(e.resultado.value) !in ResultadosActualizables
    ensures ErrorDeCampo("fecha_hora") in errores <==> e.fechaHora.Some? && !FechaHoraIso(e.fechaHora.value, esIso)
    ensures forall x :: x in errores ==> x in {ErrorDeCampo("tipo"), ErrorDeCampo("resultado"), ErrorDeCampo("fecha_hora")}
  {
    Si(EnListaOpcional(e.tipo, TiposActualizables).None?, ErrorDeCampo("tipo"))
    + Si(EnListaOpcional(e.resultado, ResultadosActualizables).None?, ErrorDeCampo("resultado"))
    + Si(e.fechaHora.Some? && !FechaHoraIso(e.fechaHora.value, esIso), ErrorDeCampo("fecha_hora"))
  }

  function ValidarUpdate(e: LlamadaUpdate, esIso: string -> bool): (r: Result<LlamadaUpdate, set<Error>>)
    ensures r.Success? <==>
              (e.usuarioId.Some? ==> e.usuarioId.value > 0)
              && (e.numeroCliente.Some? ==> |e.numeroCliente.value| >= 1)
              && (e.duracionSegundos.Some? ==> e.duracionSegundos.value > 0)
              && (e.tipo.Some? ==> Lower(e.tipo.value) in TiposActualizables)
              && (e.resultado.Some? ==> Lower(e.resultado.value) in ResultadosActualizables)
              && (e.fechaHora.Some? ==> FechaHoraIso(e.fechaHora.value, esIso))
    ensures r.Failure? ==> r.error == ErroresAtencion(e) + ErroresDescripcion(e, esIso)
    ensures r.Success? ==>
              r.value.usuarioId == e.usuarioId && r.value.numeroCliente == e.numeroCliente
              && r.value.duracionSegundos == e.duracionSegundos && r.value.fechaHora == e.fechaHora
              && (e.tipo.None? ==> r.value.tipo.None?)
              && (e.tipo.Some? ==> r.value.tipo == Some(Lower(e.tipo.value)))
              && (e.resultado.None? ==> r.value.resultado.None?)
              && (e.resultado.Some? ==> r.value.resultado == Some(Lower(e.resultado.value)))
  {
    var errores := ErroresAtencion(e) + ErroresDescripcion(e, esIso);
    if errores == {} then
      var tipo := EnListaOpcional(e.tipo, TiposActualizables);
      var resultado := EnListaOpcional(e.resultado, ResultadosActualizables);
      Success(e.(tipo := tipo.value, resultado := resultado.value))
    else Failure(errores)
  }

  /** `model_dump(exclude_unset=True)` as assignments, in declaration order:
      the fields that say who took the call and for how long, then the
      fields that describe it. */
  function Volcar(p: LlamadaUpdate): seq<Campo> {
    VolcarAtencion(p) + VolcarDescripcion(p)
  }

  function VolcarAtencion(p: LlamadaUpdate): seq<Campo> {
    (if p.usuarioId.Some? then [UsuarioId(p.usuarioId.value)] else [])
    + (if p.numeroCliente.Some? then [NumeroCliente(p.numeroCliente.value)] else [])
    + (if p.duracionSegundos.Some? then [DuracionSegundos(p.duracionSegundos.value)] else [])
  }

  function VolcarDescripcion(p: LlamadaUpdate): seq<Campo> {
    (if p.tipo.Some? then [Tipo(p.tipo.value)] else [])
    + (if p.resultado.Some? then [Resultado(p.resultado.value)] else [])
    + (if p.fechaHora.Some? then [FechaHora(p.fechaHora.value)] else [])
  }

  /** The row with every supplied field replaced and every other field kept. */
  function Parchear(l: Llamada, p: LlamadaUpdate): Llamada {
    Llamada(p.usuarioId.GetOr(l.usuarioId), p.numeroCliente.GetOr(l.numeroCliente),
            p.duracionSegundos.GetOr(l.duracionSegundos), p.tipo.GetOr(l.tipo),
            p.resultado.GetOr(l.resultado), p.fechaHora.GetOr(l.fechaHora))
  }

  lemma VolcarAtencionParchea(l: Llamada, p: LlamadaUpdate)
    ensures Partial.ApplyAll(l, VolcarAtencion(p), Asignar)
            == l.(usuarioId := p.usuarioId.GetOr(l.usuarioId), numeroCliente := p.numeroCliente.GetOr(l.numeroCliente),
                  duracionSegundos := p.duracionSegundos.GetOr(l.duracionSegundos))
  {
    var a := (if p.usuarioId.Some? then [UsuarioId(p.usuarioId.value)] else []);
    var b := (if p.numeroCliente.Some? then [NumeroCliente(p.numeroCliente.value)] else []);
    var c := (if p.duracionSegundos.Some? then [DuracionSegundos(p.duracionSegundos.value)] else []);
    Partial.ApplyAllPieza(l, [], a, Asignar);
    assert [] + a == a;
    Partial.ApplyAllPieza(l, a, b, Asignar);
    Partial.ApplyAllPieza(l, a + b, c, Asignar);
  }

  lemma VolcarDescripcionParchea(l: Llamada, p: LlamadaUpdate)
    ensures Partial.ApplyAll(l, VolcarDescripcion(p), Asignar)
            == l.(tipo := p.tipo.GetOr(l.tipo), resultado := p.resultado.GetOr(l.resultado),
                  fechaHora := p.fechaHora.GetOr(l.fechaHora))
  {
    var d := (if p.tipo.Some? then [Tipo(p.tipo.value)] else []);
    var e := (if p.resultado.Some? then [Resultado(p.resultado.value)] else []);
    var f := (if p.fechaHora.Some? then [FechaHora(p.fechaHora.value)] else []);
    Partial.ApplyAllPieza(l, [], d, Asignar);
    assert [] + d == d;
    Partial.ApplyAllPieza(l, d, e, Asignar);
    Partial.ApplyAllPieza(l, d + e, f, Asignar);
  }

  /** The `setattr` loop over the dumped fields changes exactly the supplied
      fields. */
  lemma VolcarParchea(l: Llamada, p: LlamadaUpdate)
    ensures Partial.ApplyAll(l, Volcar(p), Asignar) == Parchear(l, p)
  {
    Partial.ApplyAllAppend(l, VolcarAtencion(p), VolcarDescripcion(p), Asignar);
    VolcarAtencionParchea(l, p);
    VolcarDescripcionParchea(Partial.ApplyAll(l, VolcarAtencion(p), Asignar), p);
  }
}

=== FILE: esquema_metrica.dfy ===
/** The pydantic schemas of esquemas/metrica.py. The calendar-date parser
    `date.fromisoformat` is not part of this model: it is given as `esFecha`. */
module EsquemaMetrica {
  import opened Wrappers
  import opened Validacion
  import opened ModeloMetrica
  import Partial

  /** `ge=1.0, le=5.0` on the optional `satisfaccion_cliente`. */
  predicate SatisfaccionValida(s: Option<real>) {
    s.Some? ==> 1.0 <= s.value <= 5.0
  }

  datatype MetricaCreate =
    MetricaCreate(fecha: string, totalLlamadas: int, promedioDuracion: real, satisfaccionCliente: Option<real>)

  /** The date is checked, not rewritten: it is stored as it was given. */
  function ValidarCreate(e: MetricaCreate, esFecha: string -> bool): (r: Result<MetricaCreate, set<Error>>)
    ensures r.Success? <==>
              esFecha(e.fecha) && e.totalLlamadas >= 0 && e.promedioDuracion >= 0.0
              && SatisfaccionValida(e.satisfaccionCliente)
    ensures r.Success? ==> r.value == e
    ensures r.Failure? ==>
              (ErrorDeCampo("fecha") in r.error <==> !esFecha(e.fecha))
              && (ErrorDeCampo("total_llamadas") in r.error <==> e.totalLlamadas < 0)
              && (ErrorDeCampo("promedio_duracion") in r.error <==> e.promedioDuracion < 0.0)
              && (ErrorDeCampo("satisfaccion_cliente") in r.error <==> !SatisfaccionValida(e.satisfaccionCliente))
  {
    var errores := Si(!esFecha(e.fecha), ErrorDeCampo("fecha"))
                   + Si(e.totalLlamadas < 0, ErrorDeCampo("total_llamadas"))
                   + Si(e.promedioDuracion < 0.0, ErrorDeCampo("promedio_duracion"))
                   + Si(!SatisfaccionValida(e.satisfaccionCliente), ErrorDeCampo("satisfaccion_cliente"));
    if errores == {} then Success(e) else Failure(errores)
  }

  /** `MetricaUpdate`: `None` is a field the request left unset;
      `satisfaccionCliente` is nullable, so `Some(None)` sets it to NULL. */
  datatype MetricaUpdate =
    MetricaUpdate(fecha: Option<string>, totalLlamadas: Option<int>, promedioDuracion: Option<real>,
                  satisfaccionCliente: Option<Option<real>>)

  function ValidarUpdate(e: MetricaUpdate, esFecha: string -> bool): (r: Result<MetricaUpdate, set<Error>>)
    ensures r.Success? <==>
              (e.fecha.Some? ==> esFecha(e.fecha.value))
              && (e.totalLlamadas.Some? ==> e.totalLlamadas.value >= 0)
              && (e.promedioDuracion.Some? ==> e.promedioDuracion.value >= 0.0)
              && (e.satisfaccionCliente.Some? ==> SatisfaccionValida(e.satisfaccionCliente.value))
    ensures r.Success? ==> r.value == e
    ensures r.Failure? ==>
              (ErrorDeCampo("fecha") in r.error <==> e.fecha.Some? && !esFecha(e.fecha.value))
              && (ErrorDeCampo("total_llamadas") in r.error <==> e.totalLlamadas.Some? && e.totalLlamadas.value < 0)
              && (ErrorDeCampo("promedio_duracion") in r.error
                  <==> e.promedioDuracion.Some? && e.promedioDuracion.value < 0.0)
              && (ErrorDeCampo("satisfaccion_cliente") in r.error
                  <==> e.satisfaccionCliente.Some? && !SatisfaccionValida(e.satisfaccionCliente.value))
  {
    var errores := Si(e.fecha.Some? && !esFecha(e.fecha.value), ErrorDeCampo("fecha"))
                   + Si(e.totalLlamadas.Some? && e.totalLlamadas.value < 0, ErrorDeCampo("total_llamadas"))
                   + Si(e.promedioDuracion.Some? && e.promedioDuracion.value < 0.0, ErrorDeCampo("promedio_duracion"))
                   + Si(e.satisfaccionCliente.Some? && !SatisfaccionValida(e.satisfaccionCliente.value),
                        ErrorDeCampo("satisfaccion_cliente"));
    if errores == {} then Success(e) else Failure(errores)
  }

  /** `model_dump(exclude_unset=True)` as assignments, in declaration order. */
  function Volcar(p: MetricaUpdate): seq<Campo> {
    (if p.fecha.Some? then [Fecha(p.fecha.value)] else [])
    + (if p.totalLlamadas.Some? then [TotalLlamadas(p.totalLlamadas.value)] else [])
    + (if p.promedioDuracion.Some? then [PromedioDuracion(p.promedioDuracion.value)] else [])
    + (if p.satisfaccionCliente.Some? then [SatisfaccionCliente(p.satisfaccionCliente.value)] else [])
  }

  /** The row with every supplied field replaced and every other field kept. */
  function Parchear(m: Metrica, p: MetricaUpdate): Metrica {
    Metrica(p.fecha.GetOr(m.fecha), p.totalLlamadas.GetOr(m.totalLlamadas),
            p.promedioDuracion.GetOr(m.promedioDuracion), p.satisfaccionCliente.GetOr(m.satisfaccionCliente))
  }

  /** The `setattr` loop over the dumped fields changes exactly the supplied
      fields. */
  lemma VolcarParchea(m: Metrica, p: MetricaUpdate)
    ensures Partial.ApplyAll(m, Volcar(p), Asignar) == Parchear(m, p)
  {
    var a := if p.fecha.Some? then [Fecha(p.fecha.value)] else [];
    var b := if p.totalLlamadas.Some? then [TotalLlamadas(p.totalLlamadas.value)] else [];
    var c := if p.promedioDuracion.Some? then [PromedioDuracion(p.promedioDuracion.value)] else [];
    var d := if p.satisfaccionCliente.Some? then [SatisfaccionCliente(p.satisfaccionCliente.value)] else [];
    Partial.ApplyAllPieza(m, [], a, Asignar);
    assert [] + a == a;
    Partial.ApplyAllPieza(m, a, b, Asignar);
    Partial.ApplyAllPieza(m, a + b, c, Asignar);
    Partial.ApplyAllPieza(m, a + b + c, d, Asignar);
  }
}

=== FILE: esquema_reporte.dfy ===
/** The pydantic schemas of esquemas/reporte.py. On create, a missing
    `fecha_generado` is filled in by a model validator with the current time;
    `ahora` is what `datetime.now().isoformat()` returned. */
module EsquemaReporte {
  import opened Wrappers
  import opened Validacion
  import opened ModeloReporte
  import Partial

  datatype ReporteCreate = ReporteCreate(descripcion: Option<string>, generadoPor: int, fechaGenerado: Option<string>)

  /** The `gt=0` constraint first; the model validator on `fecha_generado`
      runs only when it passes. */
  function ValidarCreate(e: ReporteCreate, ahora: string, esIso: string -> bool): (r: Result<ReporteCreate, set<Error>>)
    ensures r.Success? <==>
              e.generadoPor > 0 && (e.fechaGenerado.Some? ==> FechaHoraIso(e.fechaGenerado.value, esIso))
    ensures r.Success? ==> r.value == e.(fechaGenerado := Some(e.fechaGenerado.GetOr(ahora)))
    ensures r.Failure? ==>
              r.error == if e.generadoPor <= 0 then {ErrorDeCampo("generado_por")} else {ErrorDeModelo("fecha_generado")}
  {
    if e.generadoPor <= 0 then Failure({ErrorDeCampo("generado_por")})
    else
      match e.fechaGenerado
      case None => Success(e.(fechaGenerado := Some(ahora)))
      case Some(v) =>
        if FechaHoraIso(v, esIso) then Success(e) else Failure({ErrorDeModelo("fecha_generado")})
  }

  /** After validation a report always has its date, kept verbatim when it
      was given, and validating it again changes nothing. */
  lemma ValidarCreateIdempotente(e: ReporteCreate, ahora: string, ahora2: string, esIso: string -> bool)
    requires ValidarCreate(e, ahora, esIso).Success?
    requires e.fechaGenerado.None? ==> FechaHoraIso(ahora, esIso)
    ensures var v := ValidarCreate(e, ahora, esIso).value;
            v.fechaGenerado.Some? && (e.fechaGenerado.Some? ==> v.fechaGenerado == e.fechaGenerado)
            && ValidarCreate(v, ahora2, esIso) == Success(v)
  {
  }

  /** `ReporteUpdate`: `None` is a field the request left unset;
      `descripcion` is nullable, so `Some(None)` sets it to NULL. */
  datatype ReporteUpdate =
    ReporteUpdate(generadoPor: Option<int>, fechaGenerado: Option<string>, descripcion: Option<Option<string>>)

  function ValidarUpdate(e: ReporteUpdate, esIso: string -> bool): (r: Result<ReporteUpdate, set<Error>>)
    ensures r.Success? <==>
              (e.generadoPor.Some? ==> e.generadoPor.value > 0)
              && (e.fechaGenerado.Some? ==> FechaHoraIso(e.fechaGenerado.value, esIso))
    ensures r.Success? ==> r.value == e
    ensures r.Failure? ==>
              (ErrorDeCampo("generado_por") in r.error <==> e.generadoPor.Some? && e.generadoPor.value <= 0)
              && (ErrorDeCampo("fecha_generado") in r.error
                  <==> e.fechaGenerado.Some? && !FechaHoraIso(e.fechaGenerado.value, esIso))
  {
    var errores := Si(e.generadoPor.Some? && e.generadoPor.value <= 0, ErrorDeCampo("generado_por"))
                   + Si(e.fechaGenerado.Some? && !FechaHoraIso(e.fechaGenerado.value, esIso), ErrorDeCampo("fecha_generado"));
    if errores == {} then Success(e) else Failure(errores)
  }

  /** `model_dump(exclude_unset=True)` as assignments, in declaration order. */
  function Volcar(p: ReporteUpdate): seq<Campo> {
    (if p.generadoPor.Some? then [GeneradoPor(p.generadoPor.value)] else [])
    + (if p.fechaGenerado.Some? then [FechaGenerado(p.fechaGenerado.value)] else [])
    + (if p.descripcion.Some? then [Descripcion(p.descripcion.value)] else [])
  }

  /** The row with every supplied field replaced and every other field kept. */
  function Parchear(r: Reporte, p: ReporteUpdate): Reporte {
    Reporte(p.generadoPor.GetOr(r.generadoPor), p.fechaGenerado.GetOr(r.fechaGenerado),
            p.descripcion.GetOr(r.descripcion))
  }

  /** The `setattr` loop over the dumped fields changes exactly the supplied
      fields. */
  lemma VolcarParchea(r: Reporte, p: ReporteUpdate)
    ensures Partial.ApplyAll(r, Volcar(p), Asignar) == Parchear(r, p)
  {
    var a := if p.generadoPor.Some? then [GeneradoPor(p.generadoPor.value)] else [];
    var b := if p.fechaGenerado.Some? then [FechaGenerado(p.fechaGenerado.value)] else [];
    var c := if p.descripcion.Some? then [Descripcion(p.descripcion.value)] else [];
    Partial.ApplyAllPieza(r, [], a, Asignar);
    assert [] + a == a;
    Partial.ApplyAllPieza(r, a, b, Asignar);
    Partial.ApplyAllPieza(r, a + b, c, Asignar);
  }
}

=== FILE: esquema_usuario.dfy ===
/** The pydantic schemas of esquemas/usuario.py. `EmailStr` is an e-mail
    validator from a library that is not part of this model: it is given as
    `normalizarEmail`, which returns the normalised address or `None`. */
module EsquemaUsuario {
  import opened Wrappers
  import opened Text
  import opened Validacion
  import opened ModeloUsuario
  import Partial
  import Query

  const Roles: set<string> := {"agente", "supervisor", "admin"}

  /** `min_length=1, max_length=100` on `nombre`. */
  predicate NombreValido(nombre: string) {
    1 <= |nombre| <= 100
  }

  /** `min_length=6` on `password`. */
  predicate PasswordValida(password: string) {
    |password| >= 6
  }

  datatype UsuarioCreate = UsuarioCreate(nombre: string, email: string, rol: string, password: string)

  function ValidarCreate(e: UsuarioCreate, normalizarEmail: string -> Option<string>): (r: Result<UsuarioCreate, set<Error>>)
    ensures r.Success? <==>
              NombreValido(e.nombre) && normalizarEmail(e.email).Some? && Lower(e.rol) in Roles
              && PasswordValida(e.password)
    ensures r.Success? ==>
              r.value == e.(email := normalizarEmail(e.email).value, rol := Lower(e.rol))
    ensures r.Failure? ==>
              (ErrorDeCampo("nombre") in r.error <==> !NombreValido(e.nombre))
              && (ErrorDeCampo("email") in r.error <==> normalizarEmail(e.email).None?)
              && (ErrorDeCampo("rol") in r.error <==> Lower(e.rol) !in Roles)
              && (ErrorDeCampo("password") in r.error <==> !PasswordValida(e.password))
  {
    var rol := EnLista(e.rol, Roles);
    var email := normalizarEmail(e.email);
    var errores := Si(!NombreValido(e.nombre), ErrorDeCampo("nombre"))
                   + Si(email.None?, ErrorDeCampo("email"))
                   + Si(rol.None?, ErrorDeCampo("rol"))
                   + Si(!PasswordValida(e.password), ErrorDeCampo("password"));
    if errores == {} then Success(e.(email := email.value, rol := rol.value)) else Failure(errores)
  }

  /** A validated user passes validation again, unchanged, when the e-mail
      normaliser leaves a normalised address as it is. */
  lemma ValidarCreateIdempotente(e: UsuarioCreate, normalizarEmail: string -> Option<string>)
    requires ValidarCreate(e, normalizarEmail).Success?
    requires var n := normalizarEmail(e.email).value; normalizarEmail(n) == Some(n)
    ensures ValidarCreate(ValidarCreate(e, normalizarEmail).value, normalizarEmail) == ValidarCreate(e, normalizarEmail)
  {
    EnListaIdempotente(e.rol, Roles);
  }

  /** `UsuarioUpdate`: `None` is a field the request left unset. */
  datatype UsuarioUpdate =
    UsuarioUpdate(nombre: Option<string>, email: Option<string>, password: Option<string>, rol: Option<string>)

  function ValidarUpdate(e: UsuarioUpdate, normalizarEmail: string -> Option<string>): (r: Result<UsuarioUpdate, set<Error>>)
    ensures r.Success? <==>
              (e.nombre.Some? ==> NombreValido(e.nombre.value))
              && (e.email.Some? ==> normalizarEmail(e.email.value).Some?)
              && (e.password.Some? ==> PasswordValida(e.password.value))
              && (e.rol.Some? ==> Lower(e.rol.value) in Roles)
    ensures r.Success? ==>
              r.value.nombre == e.nombre && r.value.password == e.password
              && (e.email.None? ==> r.value.email.None?)
              && (e.email.Some? ==> r.value.email == normalizarEmail(e.email.value))
              && (e.rol.None? ==> r.value.rol.None?)
              && (e.rol.Some? ==> r.value.rol == Some(Lower(e.rol.value)))
    ensures r.Failure? ==>
              (ErrorDeCampo("nombre") in r.error <==> e.nombre.Some? && !NombreValido(e.nombre.value))
              && (ErrorDeCampo("email") in r.error <==> e.email.Some? && normalizarEmail(e.email.value).None?)
              && (ErrorDeCampo("password") in r.error <==> e.password.Some? && !PasswordValida(e.password.value))
              && (ErrorDeCampo("rol") in r.error <==> e.rol.Some? && Lower(e.rol.value) !in Roles)
  {
    var rol := EnListaOpcional(e.rol, Roles);
    var email := if e.email.Some? then normalizarEmail(e.email.value) else None;
    var errores := Si(e.nombre.Some? && !NombreValido(e.nombre.value), ErrorDeCampo("nombre"))
                   + Si(e.email.Some? && email.None?, ErrorDeCampo("email"))
                   + Si(e.password.Some? && !PasswordValida(e.password.value), ErrorDeCampo("password"))
                   + Si(rol.None?, ErrorDeCampo("rol"));
    if errores == {} then Success(e.(email := email, rol := rol.value)) else Failure(errores)
  }

  /** `model_dump(exclude_unset=True)` as assignments, in declaration order. */
  function Volcar(p: UsuarioUpdate): seq<Campo> {
    (if p.nombre.Some? then [Nombre(p.nombre.value)] else [])
    + (if p.email.Some? then [Email(p.email.value)] else [])
    + (if p.password.Some? then [Password(p.password.value)] else [])
    + (if p.rol.Some? then [Rol(p.rol.value)] else [])
  }

  /** The row with every supplied field replaced and every other field kept. */
  function Parchear(u: Usuario, p: UsuarioUpdate): Usuario {
    Usuario(p.nombre.GetOr(u.nombre), p.email.GetOr(u.email), p.password.GetOr(u.password), p.rol.GetOr(u.rol))
  }

  /** The `setattr` loop over the dumped fields changes exactly the supplied
      fields. */
  lemma VolcarParchea(u: Usuario, p: UsuarioUpdate)
    ensures Partial.ApplyAll(u, Volcar(p), Asignar) == Parchear(u, p)
  {
    var a := if p.nombre.Some? then [Nombre(p.nombre.value)] else [];
    var b := if p.email.Some? then [Email(p.email.value)] else [];
    var c := if p.password.Some? then [Password(p.password.value)] else [];
    var d := if p.rol.Some? then [Rol(p.rol.value)] else [];
    Partial.ApplyAllPieza(u, [], a, Asignar);
    assert [] + a == a;
    Partial.ApplyAllPieza(u, a, b, Asignar);
    Partial.ApplyAllPieza(u, a + b, c, Asignar);
    Partial.ApplyAllPieza(u, a + b + c, d, Asignar);
  }

  /** `UsuarioResponse`: what the API returns for a user; it has no
      password field. */
  datatype UsuarioResponse = UsuarioResponse(id: int, nombre: string, email: string, rol: string)

  function Respuesta(fila: Query.Row<Usuario>): (r: UsuarioResponse)
    ensures r.id == fila.id && r.nombre == fila.rec.nombre && r.email == fila.rec.email && r.rol == fila.rec.rol
  {
    UsuarioResponse(fila.id, fila.rec.nombre, fila.rec.email, fila.rec.rol)
  }

  /** The response reveals nothing of the stored password: two users that
      differ only in it get the same response. */
  lemma RespuestaSinPassword(id: int, u: Usuario, password: string)
    ensures Respuesta(Query.Row(id, u)) == Respuesta(Query.Row(id, u.(password := password)))
  {
  }
}

=== FILE: modelos.dfy ===
/** The rows of the five tables (the modelos package), without their id, which is
    the key of the table that holds them. Each module also gives the
    assignments `setattr(row, field, value)` that a partial update makes:
    one constructor of `Campo` per column that an update may set. */

module ModeloUsuario {
  /** A row of `usuarios`; `password` holds the bcrypt hash. */
  datatype Usuario = Usuario(nombre: string, email: string, password: string, rol: string)

  datatype Campo = Nombre(nombre: string) | Email(email: string) | Password(password: string) | Rol(rol: string)

  /** `setattr(db_usuario, field, value)`. */
  function Asignar(u: Usuario, c: Campo): Usuario {
    match c
    case Nombre(v) => u.(nombre := v)
    case Email(v) => u.(email := v)
    case Password(v) => u.(password := v)
    case Rol(v) => u.(rol := v)
  }
}

module ModeloLlamada {
  /** A row of `llamadas`; `fechaHora` is a TEXT column holding ISO 8601. */
  datatype Llamada = Llamada(usuarioId: int, numeroCliente: string, duracionSegundos: int,
                             tipo: string, resultado: string, fechaHora: string)

  datatype Campo =
    | UsuarioId(usuarioId: int)
    | NumeroCliente(numeroCliente: string)
    | DuracionSegundos(duracionSegundos: int)
    | Tipo(tipo: string)
    | Resultado(resultado: string)
    | FechaHora(fechaHora: string)

  /** `setattr(db_llamada, field, value)`. */
  function Asignar(l: Llamada, c: Campo): Llamada {
    match c
    case UsuarioId(v) => l.(usuarioId := v)
    case NumeroCliente(v) => l.(numeroCliente := v)
    case DuracionSegundos(v) => l.(duracionSegundos := v)
    case Tipo(v) => l.(tipo := v)
    case Resultado(v) => l.(resultado := v)
    case FechaHora(v) => l.(fechaHora := v)
  }
}

module ModeloClasificacion {
  import opened Wrappers

  /** A row of `clasificacion_ia`; `recomendacionAgente` is nullable. */
  datatype ClasificacionIA = ClasificacionIA(llamadaId: int, categoria: string, confianza: real,
                                             recomendacionAgente: Option<string>)

  datatype Campo =
    | LlamadaId(llamadaId: int)
    | Categoria(categoria: string)
    | Confianza(confianza: real)
    | RecomendacionAgente(recomendacionAgente: Option<string>)

  /** `setattr(db_clasificacion, field, value)`. */
  function Asignar(c: ClasificacionIA, f: Campo): ClasificacionIA {
    match f
    case LlamadaId(v) => c.(llamadaId := v)
    case Categoria(v) => c.(categoria := v)
    case Confianza(v) => c.(confianza := v)
    case RecomendacionAgente(v) => c.(recomendacionAgente := v)
  }
}

module ModeloMetrica {
  import opened Wrappers

  /** A row of `metricas`; `fecha` is unique, `satisfaccionCliente` nullable. */
  datatype Metrica = Metrica(fecha: string, totalLlamadas: int, promedioDuracion: real,
                             satisfaccionCliente: Option<real>)

  datatype Campo =
    | Fecha(fecha: string)
    | TotalLlamadas(totalLlamadas: int)
    | PromedioDuracion(promedioDuracion: real)
    | SatisfaccionCliente(satisfaccionCliente: Option<real>)

  /** `setattr(db_metrica, field, value)`. */
  function Asignar(m: Metrica, f: Campo): Metrica {
    match f
    case Fecha(v) => m.(fecha := v)
    case TotalLlamadas(v) => m.(totalLlamadas := v)
    case PromedioDuracion(v) => m.(promedioDuracion := v)
    case SatisfaccionCliente(v) => m.(satisfaccionCliente := v)
  }
}

module ModeloReporte {
  import opened Wrappers

  /** A row of `reportes`; `descripcion` is nullable. */
  datatype Reporte = Reporte(generadoPor: int, fechaGenerado: string, descripcion: Option<string>)

  datatype Campo =
    | GeneradoPor(generadoPor: int)
    | FechaGenerado(fechaGenerado: string)
    | Descripcion(descripcion: Option<string>)

  /** `setattr(db_reporte, field, value)`. */
  function Asignar(r: Reporte, f: Campo): Reporte {
    match f
    case GeneradoPor(v) => r.(generadoPor := v)
    case FechaGenerado(v) => r.(fechaGenerado := v)
    case Descripcion(v) => r.(descripcion := v)
  }
}

=== FILE: partial.dfy ===
/** The loop every update in the crud layer runs:
    `for field, value in update_data.items(): setattr(row, field, value)`.
    `update_data` is a sequence of assignments, in the order
    `model_dump(exclude_unset=True)` lists them. */
module Partial {
  /** The row after the assignments `campos`, made one after the other. */
  function ApplyAll<R, F>(rec: R, campos: seq<F>, asignar: (R, F) -> R): R
    decreases |campos|
  {
    if campos == [] then rec
    else asignar(ApplyAll(rec, campos[..|campos| - 1], asignar), campos[|campos| - 1])
  }

  /** Assigning `xs` and then `ys` is assigning `xs + ys`. */
  lemma {:induction false} ApplyAllAppend<R, F>(rec: R, xs: seq<F>, ys: seq<F>, asignar: (R, F) -> R)
    ensures ApplyAll(rec, xs + ys, asignar) == ApplyAll(ApplyAll(rec, xs, asignar), ys, asignar)
    decreases |ys|
  {
    if ys != [] {
      var init := ys[..|ys| - 1];
      assert (xs + ys)[..|xs + ys| - 1] == xs + init;
      ApplyAllAppend(rec, xs, init, asignar);
    } else {
      assert xs + ys == xs;
    }
  }

  /** Appending at most one assignment: the shape of each field of a dump. */
  lemma ApplyAllPieza<R, F>(rec: R, xs: seq<F>, ys: seq<F>, asignar: (R, F) -> R)
    requires |ys| <= 1
    ensures ApplyAll(rec, xs + ys, asignar)
            == if ys == [] then ApplyAll(rec, xs, asignar) else asignar(ApplyAll(rec, xs, asignar), ys[0])
  {
    if ys == [] {
      assert xs + ys == xs;
    } else {
      assert (xs + ys)[..|xs + ys| - 1] == xs;
    }
  }

  /** The `setattr` loop, on a copy of the row. */
  method SetAttrs<R, F>(rec: R, campos: seq<F>, asignar: (R, F) -> R) returns (r: R)
    ensures r == ApplyAll(rec, campos, asignar)
  {
    r := rec;
    for i := 0 to |campos|
      invariant r == ApplyAll(rec, campos[..i], asignar)
    {
      assert campos[..i + 1][..i] == campos[..i];
      r := asignar(r, campos[i]);
    }
    assert campos[..|campos|] == campos;
  }
}

=== FILE: query.dfy ===
/** What the crud listings and lookups ask of the database: rows of a table
    keyed by their integer id, the first row that matches a filter, a filter,
    an ORDER BY ... DESC on one column, OFFSET/LIMIT, and the id SQLite gives
    a new row. A table is a `map<int, T>` from id to record. */
module Query {
  import opened Wrappers

  /** A stored record together with its primary key. */
  datatype Row<T> = Row(id: int, rec: T)

  /** The rows of `m` that satisfy `P`. */
  function Matching<T(==)>(m: map<int, T>, P: T -> bool): set<Row<T>> {
    set id | id in m && P(m[id]) :: Row(id, m[id])
  }

  /** `k` is a key of `ks` no larger than any other. */
  predicate IsLeast(k: int, ks: set<int>) {
    k in ks && forall j :: j in ks ==> k <= j
  }

  /** `k` is a key of `ks` no smaller than any other. */
  predicate IsGreatest(k: int, ks: set<int>) {
    k in ks && forall j :: j in ks ==> j <= k
  }

  /** The smallest key of a non-empty set of keys. */
  function MinKey(ks: set<int>): (k: int)
    requires ks != {}
    ensures k in ks && forall j :: j in ks ==> k <= j
  {
    MinExists(ks);
    var k :| IsLeast(k, ks);
    k
  }

  /** The largest key of a non-empty set of keys. */
  function MaxKey(ks: set<int>): (k: int)
    requires ks != {}
    ensures k in ks && forall j :: j in ks ==> j <= k
  {
    MaxExists(ks);
    var k :| IsGreatest(k, ks);
    k
  }

  lemma NonEmptyHasElement(ks: set<int>)
    requires ks != {}
    ensures exists k :: k in ks
  {
    if forall k :: k !in ks {
      assert false;
    }
  }

  lemma {:induction false} MinExists(ks: set<int>)
    requires ks != {}
    ensures exists k :: IsLeast(k, ks)
    decreases ks
  {
    NonEmptyHasElement(ks);
    var x :| x in ks;
    if !IsLeast(x, ks) {
      var y :| y in ks && y < x;
      var rest := ks - {x};
      assert y in rest;
      MinExists(rest);
      var k :| IsLeast(k, rest);
      assert k <= y;
      forall j | j in ks ensures k <= j {
        if j != x {
          assert j in rest;
        }
      }
      assert IsLeast(k, ks);
    }
  }

  lemma {:induction false} MaxExists(ks: set<int>)
    requires ks != {}
    ensures exists k :: IsGreatest(k, ks)
    decreases ks
  {
    NonEmptyHasElement(ks);
    var x :| x in ks;
    if !IsGreatest(x, ks) {
      var y :| y in ks && x < y;
      var rest := ks - {x};
      assert y in rest;
      MaxExists(rest);
      var k :| IsGreatest(k, rest);
      assert y <= k;
      forall j | j in ks ensures j <= k {
        if j != x {
          assert j in rest;
        }
      }
      assert IsGreatest(k, ks);
    }
  }

  /** The id SQLite gives a row inserted without an id into a table whose
      integer primary key is declared without AUTOINCREMENT: one more than
      the largest id in use, or 1 in an empty table. */
  function NewId(ks: set<int>): (id: int)
    ensures forall k :: k in ks ==> k < id
    ensures ks == {} ==> id == 1
    ensures ks != {} ==> id - 1 in ks
  {
    if ks == {} then 1 else MaxKey(ks) + 1
  }

  /** Ids appear in strictly increasing order. */
  predicate IncreasingIds<T>(s: seq<Row<T>>) {
    forall i, j :: 0 <= i < j < |s| ==> s[i].id < s[j].id
  }

  /** The rows of a table in increasing id order: the order in which a
      query without ORDER BY visits them. */
  function RowsOf<T>(m: map<int, T>): (r: seq<Row<T>>)
    ensures forall x :: x in r ==> x.id in m && m[x.id] == x.rec
    ensures forall id :: id in m ==> Row(id, m[id]) in r
    ensures IncreasingIds(r)
    decreases m.Keys
  {
    if m.Keys == {} then []
    else
      var k := MinKey(m.Keys);
      var rest := m - {k};
      assert rest.Keys < m.Keys by {
        assert k in m.Keys && k !in rest.Keys;
      }
      var tail := RowsOf(rest);
      RowsOfStep(m, k, tail);
      [Row(k, m[k])] + tail
  }

  /** The step of `RowsOf`: the row with the smallest id, then the rows of
      the rest of the table in id order. */
  lemma RowsOfStep<T>(m: map<int, T>, k: int, tail: seq<Row<T>>)
    requires k in m && forall j :: j in m ==> k <= j
    requires forall x :: x in tail ==> x.id in m - {k} && (m - {k})[x.id] == x.rec
    requires forall id :: id in m - {k} ==> Row(id, (m - {k})[id]) in tail
    requires IncreasingIds(tail)
    ensures var r := [Row(k, m[k])] + tail;
            (forall x :: x in r ==> x.id in m && m[x.id] == x.rec)
            && (forall id :: id in m ==> Row(id, m[id]) in r)
            && IncreasingIds(r)
  {
    var rest := m - {k};
    assert forall i :: 0 <= i < |tail| ==> k < tail[i].id by {
      forall i | 0 <= i < |tail| ensures k < tail[i].id {
        assert tail[i] in tail;
      }
    }
    var r := [Row(k, m[k])] + tail;
    forall id | id in m ensures Row(id, m[id]) in r {
      if id != k {
        assert id in rest && rest[id] == m[id];
      }
    }
    forall i, j | 0 <= i < j < |r| ensures r[i].id < r[j].id {
      assert r[j] == tail[j - 1];
      if i > 0 {
        assert r[i] == tail[i - 1];
      }
    }
  }

  /** The rows of `s` that satisfy `P`, in their order in `s`. */
  function Filter<T(==,!new)>(s: seq<Row<T>>, P: T -> bool): (r: seq<Row<T>>)
    ensures forall x :: x in r <==> x in s && P(x.rec)
  {
    if s == [] then []
    else
      var rest := Filter(s[1..], P);
      assert forall x :: x in s[1..] ==> x in s;
      if P(s[0].rec) then [s[0]] + rest else rest
  }

  /** Filtering keeps rows in increasing id order. */
  lemma {:induction false} FilterIncreasing<T(!new)>(s: seq<Row<T>>, P: T -> bool)
    requires IncreasingIds(s)
    ensures IncreasingIds(Filter(s, P))
    decreases |s|
  {
    if s != [] {
      var rest := Filter(s[1..], P);
      FilterIncreasing(s[1..], P);
      if P(s[0].rec) {
        var r := [s[0]] + rest;
        forall i, j | 0 <= i < j < |r| ensures r[i].id < r[j].id {
          var x := r[j];
          assert x == rest[j - 1] && x in s[1..];
          var k :| 0 <= k < |s[1..]| && s[1..][k] == x;
          assert s[k + 1] == x;
          if i > 0 {
            assert r[i] == rest[i - 1];
          }
        }
      }
    }
  }

  /** The first row of the table, in id order, that satisfies `P`: what
      `.first()` returns after a filter. */
  function First<T(==,!new)>(m: map<int, T>, P: T -> bool): (r: Option<Row<T>>)
    ensures r.Some? <==> exists id :: id in m && P(m[id])
    ensures r.Some? ==> r.value in Matching(m, P)
  {
    var s := Filter(RowsOf(m), P);
    if s == [] then
      assert forall id :: id in m ==> !P(m[id]) by {
        forall id | id in m ensures !P(m[id]) {
          assert Row(id, m[id]) in RowsOf(m);
        }
      }
      None
    else
      assert s[0] in s;
      Some(s[0])
  }

  /** When exactly one row matches, `.first()` returns that row. */
  lemma FirstOfUnique<T(!new)>(m: map<int, T>, P: T -> bool, id: int)
    requires id in m && P(m[id])
    requires forall j :: j in m && P(m[j]) ==> j == id
    ensures First(m, P) == Some(Row(id, m[id]))
  {
  }

  /** The sort keys of the listings: a FLOAT column or a TEXT column. */
  datatype Key = Number(n: real) | Text(t: string)

  /** SQLite's BINARY collation: code-point-wise lexicographic order. */
  predicate TextLe(a: string, b: string) {
    a == [] || (b != [] && (a[0] < b[0] || (a[0] == b[0] && TextLe(a[1..], b[1..]))))
  }

  lemma {:induction false} TextLeTotal(a: string, b: string)
    ensures TextLe(a, b) || TextLe(b, a)
  {
    if a != [] && b != [] && a[0] == b[0] {
      TextLeTotal(a[1..], b[1..]);
    }
  }

  lemma {:induction false} TextLeTrans(a: string, b: string, c: string)
    requires TextLe(a, b) && TextLe(b, c)
    ensures TextLe(a, c)
  {
    if a != [] && a[0] == b[0] && b[0] == c[0] {
      TextLeTrans(a[1..], b[1..], c[1..]);
    }
  }

  lemma {:induction false} TextLeAntisym(a: string, b: string)
    requires TextLe(a, b) && TextLe(b, a)
    ensures a == b
  {
    if a != [] {
      TextLeAntisym(a[1..], b[1..]);
      assert a == [a[0]] + a[1..] && b == [b[0]] + b[1..];
    }
  }

  /** The order of the keys; a listing only ever compares keys of one kind. */
  predicate KeyLe(a: Key, b: Key) {
    match (a, b)
    case (Number(x), Number(y)) => x <= y
    case (Text(x), Text(y)) => TextLe(x, y)
    case (Number(_), Text(_)) => true
    case (Text(_), Number(_)) => false
  }

  lemma KeyLeTotal(a: Key, b: Key)
    ensures KeyLe(a, b) || KeyLe(b, a)
  {
    if a.Text? && b.Text? {
      TextLeTotal(a.t, b.t);
    }
  }

  lemma KeyLeTrans(a: Key, b: Key, c: Key)
    requires KeyLe(a, b) && KeyLe(b, c)
    ensures KeyLe(a, c)
  {
    if a.Text? && b.Text? && c.Text? {
      TextLeTrans(a.t, b.t, c.t);
    }
  }

  /** Non-increasing by `key`: what ORDER BY column DESC promises. */
  predicate SortedDesc<T>(s: seq<Row<T>>, key: T -> Key) {
    forall i, j :: 0 <= i < j < |s| ==> KeyLe(key(s[j].rec), key(s[i].rec))
  }

  /** Inserts `x` into a listing that is sorted by non-increasing key. */
  function Insert<T(==)>(x: Row<T>, s: seq<Row<T>>, key: T -> Key): (r: seq<Row<T>>)
    ensures multiset(r) == multiset(s) + multiset{x}
    ensures SortedDesc(s, key) ==> SortedDesc(r, key)
  {
    if s == [] then [x]
    else if KeyLe(key(s[0].rec), key(x.rec)) then
      if SortedDesc(s, key) then InsertBeforeHead(x, s, key); [x] + s else [x] + s
    else
      var rest := Insert(x, s[1..], key);
      assert s == [s[0]] + s[1..];
      if SortedDesc(s, key) then
        KeyLeTotal(key(s[0].rec), key(x.rec));
        InsertAfterHead(x, s, rest, key);
        [s[0]] + rest
      else [s[0]] + rest
  }

  lemma InsertBeforeHead<T>(x: Row<T>, s: seq<Row<T>>, key: T -> Key)
    requires s != [] && SortedDesc(s, key) && KeyLe(key(s[0].rec), key(x.rec))
    ensures SortedDesc([x] + s, key)
  {
    var r := [x] + s;
    forall i, j | 0 <= i < j < |r| ensures KeyLe(key(r[j].rec), key(r[i].rec)) {
      if i == 0 && j > 1 {
        KeyLeTrans(key(s[j - 1].rec), key(s[0].rec), key(x.rec));
      }
    }
  }

  lemma InsertAfterHead<T>(x: Row<T>, s: seq<Row<T>>, rest: seq<Row<T>>, key: T -> Key)
    requires s != [] && SortedDesc(s, key) && KeyLe(key(x.rec), key(s[0].rec))
    requires multiset(rest) == multiset(s[1..]) + multiset{x} && SortedDesc(rest, key)
    ensures SortedDesc([s[0]] + rest, key)
  {
    var r := [s[0]] + rest;
    forall j | 0 < j < |r| ensures KeyLe(key(r[j].rec), key(s[0].rec)) {
      var y := rest[j - 1];
      assert y in multiset(rest);
      if y != x {
        assert y in multiset(s[1..]);
        var i :| 0 <= i < |s[1..]| && s[1..][i] == y;
        assert s[i + 1] == y;
      }
    }
  }

  /** ORDER BY key DESC: an insertion sort. Rows with equal keys come out in
      some order; nothing is promised about it. */
  function SortDesc<T(==)>(s: seq<Row<T>>, key: T -> Key): (r: seq<Row<T>>)
    ensures multiset(r) == multiset(s)
    ensures SortedDesc(r, key)
  {
    if s == [] then []
    else
      assert s == [s[0]] + s[1..];
      Insert(s[0], SortDesc(s[1..], key), key)
  }

  /** OFFSET skip LIMIT limit. */
  function Page<T>(s: seq<T>, skip: nat, limit: nat): (r: seq<T>)
    ensures |r| <= limit
    ensures skip >= |s| ==> r == []
    ensures skip < |s| ==> |r| == (if limit < |s| - skip then limit else |s| - skip)
    ensures forall i :: 0 <= i < |r| ==> skip + i < |s| && r[i] == s[skip + i]
  {
    var a := if skip <= |s| then skip else |s|;
    var b := if a + limit <= |s| then a + limit else |s|;
    s[a..b]
  }

  /** Two consecutive pages make the page that spans both. */
  lemma PagesTile<T>(s: seq<T>, skip: nat, n: nat, k: nat)
    ensures Page(s, skip, n) + Page(s, skip + n, k) == Page(s, skip, n + k)
  {
    var p, q, w := Page(s, skip, n), Page(s, skip + n, k), Page(s, skip, n + k);
    if skip + n < |s| {
      assert |p| == n;
      assert forall i :: 0 <= i < |w| ==> (p + q)[i] == w[i] by {
        forall i | 0 <= i < |w| ensures (p + q)[i] == w[i] {
          if i >= n {
            assert q[i - n] == s[skip + n + (i - n)];
          }
        }
      }
    }
  }

  /** A listing: the rows that satisfy `P`, ordered by non-increasing `key`,
      then cut to one page. */
  predicate IsSortedListing<T(==)>(S: seq<Row<T>>, m: map<int, T>, P: T -> bool, key: T -> Key) {
    multiset(S) == multiset(Matching(m, P)) && SortedDesc(S, key)
  }

  /** A listing without ORDER BY: the matching rows in an order SQL leaves
      open. */
  predicate IsListing<T(==)>(S: seq<Row<T>>, m: map<int, T>, P: T -> bool) {
    multiset(S) == multiset(Matching(m, P))
  }

  /** A sequence without repeats holds each of its elements once. */
  predicate Distinct<X(==)>(s: seq<X>) {
    forall i, j :: 0 <= i < j < |s| ==> s[i] != s[j]
  }

  lemma {:induction false} DistinctMultiset<X>(s: seq<X>, t: set<X>)
    requires Distinct(s) && forall x :: x in s <==> x in t
    ensures multiset(s) == multiset(t)
  {
    if s == [] {
      assert t == {};
    } else {
      var h, rest := s[0], s[1..];
      assert s == [h] + rest;
      assert Distinct(rest) by {
        forall i, j | 0 <= i < j < |rest| ensures rest[i] != rest[j] {
          assert rest[i] == s[i + 1] && rest[j] == s[j + 1];
        }
      }
      assert h !in rest by {
        forall i | 0 <= i < |rest| ensures rest[i] != h {
          assert rest[i] == s[i + 1];
        }
      }
      forall x | x in rest ensures x in t - {h} {
        assert x in s;
      }
      forall x | x in t - {h} ensures x in rest {
        assert x in [h] + rest;
      }
      DistinctMultiset(rest, t - {h});
      assert t == (t - {h}) + {h};
      assert multiset(t) == multiset(t - {h}) + multiset{h};
    }
  }

  lemma IncreasingIdsDistinct<T>(s: seq<Row<T>>)
    requires IncreasingIds(s)
    ensures Distinct(s)
  {
  }

  /** The filtered rows of a table, in id order, list each match once. */
  lemma FilteredRowsAreMatching<T(!new)>(m: map<int, T>, P: T -> bool)
    ensures multiset(Filter(RowsOf(m), P)) == multiset(Matching(m, P))
  {
    var s := Filter(RowsOf(m), P);
    FilterIncreasing(RowsOf(m), P);
    IncreasingIdsDistinct(s);
    forall x ensures x in s <==> x in Matching(m, P) {
      if x in Matching(m, P) {
        assert Row(x.id, m[x.id]) in RowsOf(m);
      }
    }
    DistinctMultiset(s, Matching(m, P));
  }

  /** Every row on a page of a listing matches, and a first page long
      enough for all matches holds each of them once. */
  lemma PageOfListing<T>(S: seq<Row<T>>, m: map<int, T>, P: T -> bool, skip: nat, limit: nat)
    requires IsListing(S, m, P)
    ensures forall x :: x in Page(S, skip, limit) ==> x.id in m && x.rec == m[x.id] && P(x.rec)
    ensures skip == 0 && limit >= |Matching(m, P)| ==>
              forall id :: id in m && P(m[id]) ==> Row(id, m[id]) in Page(S, skip, limit)
  {
    var r := Page(S, skip, limit);
    forall x | x in r ensures x.id in m && x.rec == m[x.id] && P(x.rec) {
      var i :| 0 <= i < |r| && r[i] == x;
      assert S[skip + i] == x;
      assert x in multiset(S);
      assert x in Matching(m, P);
    }
    if skip == 0 && limit >= |Matching(m, P)| {
      assert |S| == |multiset(S)| == |multiset(Matching(m, P))| == |Matching(m, P)|;
      assert r == S;
      forall id | id in m && P(m[id]) ensures Row(id, m[id]) in r {
        assert Row(id, m[id]) in Matching(m, P);
        assert Row(id, m[id]) in multiset(S);
      }
    }
  }

  /** A page of a sorted listing is sorted. */
  lemma PageSorted<T>(S: seq<Row<T>>, key: T -> Key, skip: nat, limit: nat)
    requires SortedDesc(S, key)
    ensures SortedDesc(Page(S, skip, limit), key)
  {
    var r := Page(S, skip, limit);
    forall i, j | 0 <= i < j < |r| ensures KeyLe(key(r[j].rec), key(r[i].rec)) {
      assert r[i] == S[skip + i] && r[j] == S[skip + j];
    }
  }

  /** The page of a sorted listing of the rows of `m` that satisfy `P`. */
  function ListSorted<T(==,!new)>(m: map<int, T>, P: T -> bool, key: T -> Key, skip: nat, limit: nat): (r: seq<Row<T>>)
    ensures exists S :: IsSortedListing(S, m, P, key) && r == Page(S, skip, limit)
    ensures forall x :: x in r ==> x.id in m && x.rec == m[x.id] && P(x.rec)
    ensures SortedDesc(r, key)
    ensures skip == 0 && limit >= |Matching(m, P)| ==> forall id :: id in m && P(m[id]) ==> Row(id, m[id]) in r
  {
    var S := SortDesc(Filter(RowsOf(m), P), key);
    FilteredRowsAreMatching(m, P);
    assert IsSortedListing(S, m, P, key);
    PageOfListing(S, m, P, skip, limit);
    PageSorted(S, key, skip, limit);
    Page(S, skip, limit)
  }

  /** Two filters that agree on every record keep the same rows. */
  lemma {:induction false} FilterAgrees<T(!new)>(s: seq<Row<T>>, P: T -> bool, Q: T -> bool)
    requires forall x :: P(x) == Q(x)
    ensures Filter(s, P) == Filter(s, Q)
    decreases |s|
  {
    if s != [] {
      FilterAgrees(s[1..], P, Q);
    }
  }

  /** Two filters that agree on every record give the same listing. */
  lemma ListSortedAgrees<T(!new)>(m: map<int, T>, P: T -> bool, Q: T -> bool, key: T -> Key, skip: nat, limit: nat)
    requires forall x :: P(x) == Q(x)
    ensures ListSorted(m, P, key, skip, limit) == ListSorted(m, Q, key, skip, limit)
  {
    FilterAgrees(RowsOf(m), P, Q);
  }

  /** A table of one row that matches has that one match. */
  lemma MatchingOfOne<T>(m: map<int, T>, P: T -> bool, id: int)
    requires m.Keys == {id} && P(m[id])
    ensures Matching(m, P) == {Row(id, m[id])}
  {
    assert Row(id, m[id]) in Matching(m, P);
  }

  /** The one sequence that holds exactly `x`, once. */
  lemma SingletonMultiset<X>(s: seq<X>, x: X)
    requires multiset(s) == multiset{x}
    ensures s == [x]
  {
    assert |s| == |multiset(s)| == 1;
    assert s[0] in multiset(s);
  }

  /** When exactly one row matches, the first page is that row alone. */
  lemma ListSortedSingle<T(!new)>(m: map<int, T>, P: T -> bool, key: T -> Key, x: Row<T>, limit: nat)
    requires Matching(m, P) == {x} && limit >= 1
    ensures ListSorted(m, P, key, 0, limit) == [x]
  {
    var r := ListSorted(m, P, key, 0, limit);
    var S :| IsSortedListing(S, m, P, key) && r == Page(S, 0, limit);
    assert multiset(Matching(m, P)) == multiset{x};
    SingletonMultiset(S, x);
  }

  /** The page of a listing, in id order, of the rows of `m` that satisfy
      `P`. */
  function ListUnordered<T(==,!new)>(m: map<int, T>, P: T -> bool, skip: nat, limit: nat): (r: seq<Row<T>>)
    ensures exists S :: IsListing(S, m, P) && r == Page(S, skip, limit)
    ensures forall x :: x in r ==> x.id in m && x.rec == m[x.id] && P(x.rec)
    ensures skip == 0 && limit >= |Matching(m, P)| ==> forall id :: id in m && P(m[id]) ==> Row(id, m[id]) in r
  {
    var S := Filter(RowsOf(m), P);
    FilteredRowsAreMatching(m, P);
    assert IsListing(S, m, P);
    PageOfListing(S, m, P, skip, limit);
    Page(S, skip, limit)
  }
}

=== FILE: text.dfy ===
/** The handful of Python string operations the service and the schemas use:
    `str.strip()`, `str.lower()`, `in` on strings, `str.split(sep)[0]` and
    `[1]`, and `str.replace` of one character. */
module Text {
  import opened Wrappers

  /** `str.isspace()` for one character: the characters Python 3 strips with
      a bare `strip()`. */
  predicate IsSpace(c: char) {
    c in {' ', '\t', '\n', '\r', '\U{000B}', '\U{000C}', '\U{001C}', '\U{001D}', '\U{001E}',
          '\U{001F}', '\U{0085}', '\U{00A0}', '\U{1680}', '\U{2028}', '\U{2029}', '\U{202F}',
          '\U{205F}', '\U{3000}'}
    || ('\U{2000}' <= c <= '\U{200A}')
  }

  predicate AllSpace(s: string) {
    forall i :: 0 <= i < |s| ==> IsSpace(s[i])
  }

  /** Neither end of `s` is white space: what `strip()` returns. */
  predicate Stripped(s: string) {
    s == [] || (!IsSpace(s[0]) && !IsSpace(s[|s| - 1]))
  }

  /** `str.lstrip()`: the suffix left after the leading white space. */
  function TrimLeft(s: string): (r: string)
    ensures |r| <= |s| && r == s[|s| - |r|..]
    ensures AllSpace(s[..|s| - |r|])
    ensures r == [] || !IsSpace(r[0])
  {
    if s != [] && IsSpace(s[0]) then
      var r := TrimLeft(s[1..]);
      TrimLeftStep(s, r);
      r
    else s
  }

  /** The step of `TrimLeft`: dropping a leading space and then a run of
      spaces drops one longer run. */
  lemma TrimLeftStep(s: string, r: string)
    requires s != [] && IsSpace(s[0]) && |r| <= |s| - 1
    requires r == s[1..][|s| - 1 - |r|..] && AllSpace(s[1..][..|s| - 1 - |r|])
    ensures r == s[|s| - |r|..] && AllSpace(s[..|s| - |r|])
  {
    var n := |s| - |r|;
    assert s[1..][n - 1..] == s[n..];
    forall i | 0 <= i < n ensures IsSpace(s[..n][i]) {
      if i > 0 {
        assert s[..n][i] == s[1..][..n - 1][i - 1];
      }
    }
  }

  /** `str.rstrip()`: the prefix left before the trailing white space. */
  function TrimRight(s: string): (r: string)
    ensures |r| <= |s| && r == s[..|r|]
    ensures AllSpace(s[|r|..])
    ensures r == [] || !IsSpace(r[|r| - 1])
  {
    if s != [] && IsSpace(s[|s| - 1]) then
      var r := TrimRight(s[..|s| - 1]);
      TrimRightStep(s, r);
      r
    else s
  }

  /** The step of `TrimRight`: dropping a trailing space and then a run of
      spaces drops one longer run. */
  lemma TrimRightStep(s: string, r: string)
    requires s != [] && IsSpace(s[|s| - 1]) && |r| <= |s| - 1
    requires r == s[..|s| - 1][..|r|] && AllSpace(s[..|s| - 1][|r|..])
    ensures r == s[..|r|] && AllSpace(s[|r|..])
  {
    assert s[..|s| - 1][..|r|] == s[..|r|];
    forall i | 0 <= i < |s| - |r| ensures IsSpace(s[|r|..][i]) {
      if i < |s| - 1 - |r| {
        assert s[|r|..][i] == s[..|s| - 1][|r|..][i];
      }
    }
  }

  /** `str.strip()`. */
  function Strip(s: string): (r: string)
    ensures Stripped(r)
    ensures |r| <= |s|
  {
    TrimRight(TrimLeft(s))
  }

  lemma {:induction false} TrimLeftBeforeSolid(a: string, m: string)
    requires m != [] && !IsSpace(m[0])
    ensures TrimLeft(a + m) == TrimLeft(a) + m
  {
    if a == [] {
      assert a + m == m;
    } else if IsSpace(a[0]) {
      assert (a + m)[1..] == a[1..] + m;
      TrimLeftBeforeSolid(a[1..], m);
    } else {
      assert (a + m)[0] == a[0];
    }
  }

  lemma {:induction false} TrimRightAfterSolid(m: string, b: string)
    requires m != [] && !IsSpace(m[|m| - 1])
    ensures TrimRight(m + b) == m + TrimRight(b)
  {
    if b == [] {
      assert m + b == m;
    } else if IsSpace(b[|b| - 1]) {
      assert (m + b)[..|m + b| - 1] == m + b[..|b| - 1];
      TrimRightAfterSolid(m, b[..|b| - 1]);
    } else {
      assert (m + b)[|m + b| - 1] == b[|b| - 1];
    }
  }

  /** Stripping a text whose middle part starts and ends with a non-space
      character only trims the two outer parts. */
  lemma StripAroundSolid(a: string, m: string, b: string)
    requires m != [] && !IsSpace(m[0]) && !IsSpace(m[|m| - 1])
    ensures Strip(a + m + b) == TrimLeft(a) + m + TrimRight(b)
  {
    var t := TrimLeft(a);
    calc {
      Strip(a + m + b);
    == { assert a + m + b == a + (m + b); }
      TrimRight(TrimLeft(a + (m + b)));
    == { assert (m + b)[0] == m[0]; TrimLeftBeforeSolid(a, m + b); }
      TrimRight(t + (m + b));
    == { assert t + (m + b) == (t + m) + b; }
      TrimRight((t + m) + b);
    == { assert (t + m)[|t + m| - 1] == m[|m| - 1]; TrimRightAfterSolid(t + m, b); }
      t + m + TrimRight(b);
    }
  }

  /** `strip()` leaves an already stripped text alone. */
  lemma StripStripped(s: string)
    requires Stripped(s)
    ensures Strip(s) == s
  {
  }

  lemma {:induction false} TrimLeftAllSpace(a: string, m: string)
    requires AllSpace(a)
    ensures TrimLeft(a + m) == TrimLeft(m)
  {
    if a != [] {
      assert (a + m)[0] == a[0];
      assert (a + m)[1..] == a[1..] + m;
      TrimLeftAllSpace(a[1..], m);
    } else {
      assert a + m == m;
    }
  }

  lemma {:induction false} TrimRightAllSpace(m: string, b: string)
    requires AllSpace(b)
    ensures TrimRight(m + b) == TrimRight(m)
  {
    if b != [] {
      assert (m + b)[|m + b| - 1] == b[|b| - 1];
      assert (m + b)[..|m + b| - 1] == m + b[..|b| - 1];
      TrimRightAllSpace(m, b[..|b| - 1]);
    } else {
      assert m + b == m;
    }
  }

  /** White space around a stripped text is exactly what `strip()` removes. */
  lemma StripPadded(a: string, m: string, b: string)
    requires AllSpace(a) && AllSpace(b) && Stripped(m)
    ensures Strip(a + m + b) == m
  {
    assert a + m + b == a + (m + b);
    TrimLeftAllSpace(a, m + b);
    if m == [] {
      assert m + b == b;
      assert TrimLeft(b) == [] by {
        TrimLeftAllSpace(b, []);
        assert b + [] == b;
      }
    } else {
      TrimLeftBeforeSolid([], m + b);
      assert [] + (m + b) == m + b;
      TrimRightAllSpace(m, b);
    }
  }

  /** ASCII part of `str.lower()`. */
  function LowerChar(c: char): char {
    if 'A' <= c <= 'Z' then (c as int + 32) as char else c
  }

  /** `str.lower()` on the ASCII letters; every other character is kept. */
  function Lower(s: string): (r: string)
    ensures |r| == |s|
    ensures forall i :: 0 <= i < |s| ==> r[i] == LowerChar(s[i])
    ensures forall i :: 0 <= i < |s| ==> !('A' <= r[i] <= 'Z')
  {
    seq(|s|, i requires 0 <= i < |s| => LowerChar(s[i]))
  }

  predicate NoUpper(s: string) {
    forall i :: 0 <= i < |s| ==> !('A' <= s[i] <= 'Z')
  }

  /** A text without upper-case letters is its own lower-case form, so
      lower-casing is idempotent. */
  lemma LowerFixesLowercase(s: string)
    requires NoUpper(s)
    ensures Lower(s) == s
  {
  }

  /** `pat` occurs in `s` starting at index `i`. */
  predicate OccursAt(s: string, pat: string, i: nat) {
    i + |pat| <= |s| && s[i..i + |pat|] == pat
  }

  /** The index of the first occurrence of `pat` in `s` at or after `from`. */
  function Find(s: string, pat: string, from: nat): (r: Option<nat>)
    decreases |s| - from
    ensures r.Some? ==> from <= r.value && OccursAt(s, pat, r.value)
    ensures r.Some? ==> forall j :: from <= j < r.value ==> !OccursAt(s, pat, j)
    ensures r.None? ==> forall j :: from <= j ==> !OccursAt(s, pat, j)
  {
    if from + |pat| > |s| then None
    else if OccursAt(s, pat, from) then Some(from)
    else Find(s, pat, from + 1)
  }

  /** Python's `pat in s`. */
  function Contains(s: string, pat: string): (b: bool)
    ensures b <==> exists i: nat :: OccursAt(s, pat, i)
  {
    Find(s, pat, 0).Some?
  }

  /** Where the piece of `s` that starts at `from` ends when `s` is split on
      `sep`: the next occurrence of `sep`, or the end of `s`. */
  function PieceEnd(s: string, sep: string, from: nat): (e: nat)
    requires from <= |s|
    ensures from <= e <= |s|
    ensures forall j :: from <= j < e ==> !OccursAt(s, sep, j)
    ensures e < |s| ==> OccursAt(s, sep, e)
  {
    match Find(s, sep, from)
    case Some(j) => j
    case None => |s|
  }

  /** `s.split(sep)[0]`: everything before the first `sep`. */
  function SplitHead(s: string, sep: string): (r: string)
    requires sep != []
    ensures |r| <= |s| && r == s[..|r|]
    ensures !Contains(r, sep)
    ensures Contains(s, sep) ==> OccursAt(s, sep, |r|)
    ensures !Contains(s, sep) ==> r == s
  {
    var e := PieceEnd(s, sep, 0);
    assert forall j: nat :: !OccursAt(s[..e], sep, j) by {
      forall j: nat | OccursAt(s[..e], sep, j) ensures false {
        assert s[..e][j..j + |sep|] == s[j..j + |sep|];
        assert OccursAt(s, sep, j);
      }
    }
    s[..e]
  }

  /** `s.split(sep)[1]`, for a text that holds `sep`: everything between the
      first `sep` and the next one (or the end). */
  function SplitSecond(s: string, sep: string): (r: string)
    requires sep != [] && Contains(s, sep)
    ensures var i := |SplitHead(s, sep)| + |sep|;
            OccursAt(s, sep, i - |sep|) && i + |r| <= |s| && r == s[i..i + |r|]
    ensures !Contains(r, sep)
    ensures var e := |SplitHead(s, sep)| + |sep| + |r|;
            e == |s| || OccursAt(s, sep, e)
  {
    var i := Find(s, sep, 0).value;
    PieceHoldsNoSeparator(s, sep, i + |sep|);
    s[i + |sep|..PieceEnd(s, sep, i + |sep|)]
  }

  /** `s.replace(c, rep)` for a single character `c`. */
  function ReplaceChar(s: string, c: char, rep: string): (r: string)
    ensures c !in s ==> r == s
    ensures c !in rep ==> c !in r
    ensures forall d :: d in r ==> d in s || d in rep
  {
    if s == [] then []
    else (if s[0] == c then rep else [s[0]]) + ReplaceChar(s[1..], c, rep)
  }

  /** `replace` works piece by piece: on a concatenation it is the
      concatenation of the replaced pieces, in the same order. */
  lemma {:induction false} ReplaceCharAppend(a: string, b: string, c: char, rep: string)
    ensures ReplaceChar(a + b, c, rep) == ReplaceChar(a, c, rep) + ReplaceChar(b, c, rep)
  {
    if a == [] {
      assert a + b == b;
    } else {
      assert (a + b)[0] == a[0];
      assert (a + b)[1..] == a[1..] + b;
      ReplaceCharAppend(a[1..], b, c, rep);
    }
  }

  /** On a single character `replace` gives `rep` for `c` and keeps any
      other character. */
  lemma ReplaceCharOne(x: char, c: char, rep: string)
    ensures ReplaceChar([x], c, rep) == if x == c then rep else [x]
  {
    assert [x][1..] == [];
  }

  lemma MulSucc(k: int, n: int)
    ensures k * (n + 1) == k * n + k
  {
  }

  /** Each occurrence of `c` grows the text by `|rep| - 1` characters. */
  lemma {:induction false} ReplaceCharLength(s: string, c: char, rep: string)
    ensures |ReplaceChar(s, c, rep)| == |s| + (|rep| - 1) * multiset(s)[c]
  {
    if s != [] {
      var k, n := |rep| - 1, multiset(s[1..])[c];
      ReplaceCharLength(s[1..], c, rep);
      ReplaceCharStep(s, c, rep);
      if s[0] == c {
        MulSucc(k, n);
      }
    }
  }

  /** One step of `ReplaceCharLength`: the first character contributes
      `|rep|` or 1 to the length, and 1 or 0 to the count of `c`. */
  lemma ReplaceCharStep(s: string, c: char, rep: string)
    requires s != []
    ensures |ReplaceChar(s, c, rep)| == (if s[0] == c then |rep| else 1) + |ReplaceChar(s[1..], c, rep)|
    ensures multiset(s)[c] == (if s[0] == c then 1 else 0) + multiset(s[1..])[c]
  {
    assert s == [s[0]] + s[1..];
    assert multiset(s) == multiset{s[0]} + multiset(s[1..]);
  }

  /** No occurrence of `pat` starts inside a stretch of `s` that lacks the
      first character of `pat`. */
  lemma NoOccurrenceIn(s: string, pat: string, lo: nat, hi: nat)
    requires pat != [] && lo <= hi <= |s| && pat[0] !in s[lo..hi]
    ensures forall j :: lo <= j < hi ==> !OccursAt(s, pat, j)
  {
    forall j | lo <= j < hi ensures !OccursAt(s, pat, j) {
      assert s[j] == s[lo..hi][j - lo];
      if j + |pat| <= |s| {
        assert s[j..j + |pat|][0] == s[j];
      }
    }
  }

  /** `Find` returns an occurrence that nothing before it precedes. */
  lemma FindIs(s: string, pat: string, from: nat, i: nat)
    requires from <= i && OccursAt(s, pat, i)
    requires forall j :: from <= j < i ==> !OccursAt(s, pat, j)
    ensures Find(s, pat, from) == Some(i)
  {
  }

  /** The first occurrence at or after `from` is at `i` when `pat` occurs at
      `i` and the stretch from `from` to `i` lacks its first character. */
  lemma FindAfterClean(s: string, pat: string, from: nat, i: nat)
    requires pat != [] && from <= i && OccursAt(s, pat, i) && pat[0] !in s[from..i]
    ensures Find(s, pat, from) == Some(i)
  {
    NoOccurrenceIn(s, pat, from, i);
    FindIs(s, pat, from, i);
  }

  /** The first character of an occurrence is the first character of the
      pattern, so a text without that character holds no occurrence. */
  lemma NoOccurrenceWithout(s: string, pat: string)
    requires pat != [] && pat[0] !in s
    ensures !Contains(s, pat)
  {
    forall i: nat ensures !OccursAt(s, pat, i) {
      if i + |pat| <= |s| {
        assert s[i..i + |pat|][0] == s[i];
        assert s[i] in s;
      }
    }
  }

  /** A piece of a split holds no separator. */
  lemma PieceHoldsNoSeparator(s: string, sep: string, from: nat)
    requires sep != [] && from <= |s|
    ensures !Contains(s[from..PieceEnd(s, sep, from)], sep)
  {
    var e := PieceEnd(s, sep, from);
    var piece := s[from..e];
    forall j: nat ensures !OccursAt(piece, sep, j) {
      if j + |sep| <= |piece| {
        assert piece[j..j + |sep|] == s[from + j..from + j + |sep|];
        assert !OccursAt(s, sep, from + j);
      }
    }
  }

  /** The piece after the first `sep` holds no `sep`, so splitting it on
      `sep` again leaves it whole. */
  lemma SplitSecondWhole(s: string, sep: string)
    requires sep != [] && Contains(s, sep)
    ensures SplitHead(SplitSecond(s, sep), sep) == SplitSecond(s, sep)
  {
    var i := Find(s, sep, 0).value;
    PieceHoldsNoSeparator(s, sep, i + |sep|);
  }

  /** A slice of a slice is a slice of the whole. */
  lemma SliceOfSlice(s: string, lo: nat, hi: nat, a: nat, b: nat)
    requires lo <= hi <= |s| && a <= b <= hi - lo
    ensures s[lo..hi][a..b] == s[lo + a..lo + b]
  {
    var w, v := s[lo..hi][a..b], s[lo + a..lo + b];
    forall x | 0 <= x < |w| ensures w[x] == v[x] {
      assert w[x] == s[lo + a + x];
    }
  }

  /** A slice of a text that does not hold `pat` does not hold it either. */
  lemma SliceKeepsAbsent(s: string, pat: string, lo: nat, hi: nat)
    requires lo <= hi <= |s| && !Contains(s, pat)
    ensures !Contains(s[lo..hi], pat)
  {
    var t := s[lo..hi];
    forall j: nat ensures !OccursAt(t, pat, j) {
      if j + |pat| <= |t| {
        var w, v := t[j..j + |pat|], s[lo + j..lo + j + |pat|];
        assert forall x :: 0 <= x < |pat| ==> w[x] == v[x];
        assert !OccursAt(s, pat, lo + j);
      }
    }
  }

  /** `strip()` never brings in a pattern the text did not hold. */
  lemma StripKeepsAbsent(s: string, pat: string)
    requires !Contains(s, pat)
    ensures !Contains(Strip(s), pat)
  {
    TrimLeftKeepsAbsent(s, pat);
    TrimRightKeepsAbsent(TrimLeft(s), pat);
  }

  lemma TrimLeftKeepsAbsent(s: string, pat: string)
    requires !Contains(s, pat)
    ensures !Contains(TrimLeft(s), pat)
  {
    var l := TrimLeft(s);
    assert l == s[|s| - |l|..|s|];
    SliceKeepsAbsent(s, pat, |s| - |l|, |s|);
  }

  lemma TrimRightKeepsAbsent(s: string, pat: string)
    requires !Contains(s, pat)
    ensures !Contains(TrimRight(s), pat)
  {
    var r := TrimRight(s);
    assert r == s[0..|r|];
    SliceKeepsAbsent(s, pat, 0, |r|);
  }
}

=== FILE: validacion.dfy ===
/** What the pydantic schemas under esquemas/ share: a validation error,
    the "lower-case and check against a list" field validator, and the
    ISO 8601 check on date-time text. The ISO 8601 and calendar-date
    parsers of the `datetime` module are not part of this model: they are
    given as predicates on text. */
module Validacion {
  import opened Wrappers
  import opened Text

  /** One entry of a pydantic `ValidationError`: a field whose constraint or
      validator failed, or a model validator (run only once every field is
      valid) that raised, named after the field it checks. */
  datatype Error = ErrorDeCampo(campo: string) | ErrorDeModelo(campo: string)

  /** The error entry `e` when `falla` holds, nothing otherwise: one term of
      the errors a validation collects. */
  function Si(falla: bool, e: Error): (r: set<Error>)
    ensures forall x :: x in r <==> falla && x == e
  {
    if falla then {e} else {}
  }

  /** The field validators that return `v.lower()` when it is in the allowed
      list and raise otherwise. */
  function EnLista(v: string, permitidos: set<string>): (r: Option<string>)
    ensures r.Some? <==> Lower(v) in permitidos
    ensures r.Some? ==> r.value == Lower(v) && NoUpper(r.value)
  {
    if Lower(v) in permitidos then Some(Lower(v)) else None
  }

  /** Validating an accepted value again gives it back unchanged. */
  lemma EnListaIdempotente(v: string, permitidos: set<string>)
    requires EnLista(v, permitidos).Some?
    ensures EnLista(EnLista(v, permitidos).value, permitidos) == EnLista(v, permitidos)
  {
    LowerFixesLowercase(Lower(v));
  }

  /** A value already in lower case is accepted exactly when it is listed,
      and comes back as it was. */
  lemma EnListaMinusculas(v: string, permitidos: set<string>)
    requires NoUpper(v)
    ensures EnLista(v, permitidos) == if v in permitidos then Some(v) else None
  {
    LowerFixesLowercase(v);
  }

  /** The same validator on an `Optional[str]` field: `None` passes. */
  function EnListaOpcional(v: Option<string>, permitidos: set<string>): (r: Option<Option<string>>)
    ensures v.None? ==> r == Some(None)
    ensures v.Some? ==> (r.Some? <==> Lower(v.value) in permitidos)
    ensures v.Some? && r.Some? ==> r.value == Some(Lower(v.value))
  {
    match v
    case None => Some(None)
    case Some(x) => if Lower(x) in permitidos then Some(Some(Lower(x))) else None
  }

  /** `v.replace('Z', '+00:00')`, the text handed to
      `datetime.fromisoformat`. */
  function SinZ(v: string): (r: string)
    ensures 'Z' !in r
    ensures 'Z' !in v ==> r == v
  {
    ReplaceChar(v, 'Z', "+00:00")
  }

  /** The rewrite goes piece by piece, turning each `Z` into `+00:00` and
      keeping every other character where it was. */
  lemma SinZPorPartes(a: string, b: string, x: char)
    ensures SinZ(a + b) == SinZ(a) + SinZ(b)
    ensures SinZ([x]) == if x == 'Z' then "+00:00" else [x]
  {
    ReplaceCharAppend(a, b, 'Z', "+00:00");
    ReplaceCharOne(x, 'Z', "+00:00");
  }

  /** A UTC time written with a trailing `Z` is read with the `+00:00`
      offset, the rest of the text unchanged. */
  lemma SinZSufijo(v: string)
    requires 'Z' !in v
    ensures SinZ(v + "Z") == v + "+00:00"
  {
    SinZPorPartes(v, "Z", 'Z');
    assert "Z" == ['Z'];
  }

  /** Each `Z` adds five characters. */
  lemma SinZLongitud(v: string)
    ensures |SinZ(v)| == |v| + 5 * multiset(v)['Z']
  {
    ReplaceCharLength(v, 'Z', "+00:00");
  }

  /** `datetime.fromisoformat(v.replace('Z', '+00:00'))` does not raise;
      `esIso` stands for the parser. A time without `Z` goes to the parser
      as it is; one whose only `Z` is the last character goes with that `Z`
      read as the offset `+00:00`. */
  function FechaHoraIso(v: string, esIso: string -> bool): (b: bool)
    ensures 'Z' !in v ==> (b <==> esIso(v))
    ensures |v| > 0 && v[|v| - 1] == 'Z' && 'Z' !in v[..|v| - 1] ==>
              (b <==> esIso(v[..|v| - 1] + "+00:00"))
  {
    if |v| > 0 && v[|v| - 1] == 'Z' && 'Z' !in v[..|v| - 1] then
      assert v == v[..|v| - 1] + "Z";
      SinZSufijo(v[..|v| - 1]);
      esIso(SinZ(v))
    else
      esIso(SinZ(v))
  }
}

=== FILE: wrappers.dfy ===
/** Option and Result, the two wrappers the rest of the model uses for
    Python's `None` and for raised exceptions. */
module Wrappers {

  datatype Option<+T> = None | Some(value: T) {
    function GetOr(default: T): T {
      match this
      case Some(v) => v
      case None => default
    }
  }

  datatype Result<+R, +E> = Success(value: R) | Failure(error: E) {
    predicate IsFailure() {
      Failure?
    }

    function PropagateFailure<U>(): Result<U, E>
      requires Failure?
    {
      Failure(error)
    }

    function Extract(): R
      requires Success?
    {
      value
    }
  }
}
